=== FILE: README.md ===
# fpa-agent core in Dafny

A model of the two pieces of the fpa-agent FP&A assistant that do the work:

- the **metric calculators** of `agent/tools.py`. They convert ledger amounts to
  USD through a (month, currency) rate table, then compute:
  - revenue against budget for a month;
  - the monthly gross-margin trend;
  - the opex breakdown of a month, sorted by spend;
  - the monthly EBITDA trend;
  - the cash runway over the last three EBITDA months.
- the **intent parser** of `agent/planner.py`. It lower-cases and strips a
  question, looks for a `20YY-MM` month in it, and sorts it into one of six
  intents through a cascade of keyword tests.

## Modules

- `Wrappers` (`wrappers.dfy`): `Option` and `Result`.
- `Text` (`text.dfy`): Python string ordering, `sorted(set(...))` of month keys,
  the substring test `w in s`, and ASCII `str.lower` and `str.strip`.
- `Ledger` (`ledger.dfy`): ledger, rate and cash rows, and the rate lookup and
  conversion of `_usd`. Also the `opex_mask` test, the boolean-mask row filters,
  and `Contribution`. `Contribution` is a reference definition: the USD total of
  the rows of one month that an entity filter and an account selector keep,
  computed straight from the raw rows. Every calculator is proved against it.
- `Grouping` (`grouping.dfy`): `groupby(...).sum()` as a list of buckets with
  distinct keys, and the descending sort by USD.
- `Metrics` (`metrics.dfy`): the five calculators, and the as-written variants
  named under Findings.
- `Planner` (`planner.dfy`): `Intent` and `parse_intent`.

## Modelling choices

- Floats are `real`, and every sum is exact.
- Python truthiness of a number (`if budg`, `if R`) is `!= 0.0`.
- A missing value (`None`) is `Option.None`.
- `cash_runway_months` returns `None`, `np.inf` or a float. These are `NoData`,
  `Unlimited` and `Months(m)`.
- A run-time exception the source does not catch is an `Err`:
  - taking the last row of an empty cash table is `EmptyCashTable`;
  - sorting a frame built from no rows by "month" is `NoMonthColumn`.

## Model

| member | source | states |
|---|---|---|
| Ledger.RateOfUniqueTable | agent/tools.py:10-16 | when no two rate rows share a (month, currency) key, the rate looked up for a row's key is that row's rate |
| Ledger.RateOfMissingKey | agent/tools.py:16 | a (month, currency) key absent from the rate table gets rate 1.0 |
| Ledger.ToUsd | agent/tools.py:8-18 | conversion keeps the number and order of rows; row i becomes row i with its amount times its key's rate |
| Ledger.ToUsdDefaultsToOne | agent/tools.py:16-17 | a row whose key has no rate keeps its amount as its USD value |
| Ledger.OpexMaskIsPrefix | agent/tools.py:20-21 | a category passes the opex mask exactly when it is "Opex:" followed by anything |
| Ledger.OpexMaskIsCaseSensitive | agent/tools.py:20-21 | the mask compares exactly: "Opex:Rent" passes; "opex:Rent", "OPEX:Rent" and "Opex Rent" do not |
| Ledger.CategoriesDisjoint | agent/tools.py:5-6 | no account is both Revenue and COGS, and neither of them passes the `Opex:` prefix test: each category is selected by at most one of the revenue, COGS and opex selectors |
| Ledger.FilterRows | agent/tools.py:26-30 | a row survives the month, entity and account masks exactly when it is in the input and matches all three, and a matching row is kept as many times as it occurs |
| Ledger.FilterUsd | agent/tools.py:55 | a converted row survives the month and opex masks exactly when it is in the input and matches both, and a matching row is kept as many times as it occurs |
| Ledger.ContributionOfNothing | agent/tools.py:33-34 | when no row matches the filters, the total is 0.0 |
| Ledger.SumOfFilteredRows | agent/tools.py:26-34 | filtering, then converting, then summing yields the reference total |
| Ledger.SumOfConvertedRows | agent/tools.py:54-55 | converting, then filtering, then summing yields the reference total |
| Grouping.GroupBy | agent/tools.py:41-43 | the groups have distinct keys; each group holds the sum of the USD values of the rows with its key; the group totals add up to the input total |
| Grouping.GroupByKeys | agent/tools.py:41 | a key has a group exactly when some input row carries it |
| Grouping.LookupMember | agent/tools.py:47-48 | `series.get(m)` on a group present in distinct-keyed groups returns that group's sum |
| Grouping.LookupAbsent | agent/tools.py:47-48 | `series.get(m, 0.0)` on a missing key returns 0.0 |
| Grouping.SortByUsdOrdered | agent/tools.py:58 | sorting by USD descending gives a non-increasing sequence that is a permutation of its input |
| Grouping.SortByUsdTotal | agent/tools.py:58 | sorting keeps the total |
| Grouping.SortByUsdKeys | agent/tools.py:58 | sorting keeps the key set and distinct keys |
| Text.SortedDistinct | agent/tools.py:44 | `sorted(set(xs))` is strictly ascending and holds exactly the elements of xs |
| Text.AscendingUnique | agent/tools.py:44 | two strictly ascending sequences with the same elements are equal, so the sorted month list is unique |
| Text.BelowTransitive | agent/tools.py:44 | Python string ordering is transitive |
| Text.BelowConnected | agent/tools.py:44 | Python string ordering is total |
| Text.Contains | agent/planner.py:15-23 | `w in s` holds exactly when w occurs at some position of s |
| Text.Lower | agent/planner.py:11 | lower-casing keeps the length, maps each upper-case ASCII letter 32 code points down, and leaves every other character unchanged |
| Text.LowerIdempotent | agent/planner.py:11 | lower-casing twice equals lower-casing once |
| Text.Strip | agent/planner.py:11 | stripping yields the slice between the first and the last non-space character, and is empty exactly when the input is all whitespace |
| Text.StripKeepsOccurrences | agent/planner.py:11-23 | a keyword that starts and ends with a non-space character occurs in the stripped string exactly when it occurs in the original |
| Metrics.MonthlyTotals | agent/tools.py:41-43 | the per-month groups of one account selector have distinct months; a month has a group exactly when a selected row exists for it; each group holds the reference total |
| Metrics.Percent | agent/tools.py:36 | the percentage is None exactly when the base is 0; otherwise it times the base equals the part times 100 |
| Metrics.SummarizeRevenueVsBudget | agent/tools.py:23-37 | actual and budget are the reference Revenue totals of the month under the entity filter (an empty or absent entity means all, reported as "All"); the delta is actual minus budget; the percentage is None exactly when the budget is 0 |
| Metrics.NoMatchingRevenue | agent/tools.py:33-36 | with no matching revenue rows, every amount is 0.0 and the percentage is None |
| Metrics.MarginOf | agent/tools.py:47-50 | a margin row carries the month, revenue and COGS; its margin is None when revenue is 0, and otherwise (R - C) / R * 100 |
| Metrics.GrossMarginPct | agent/tools.py:39-51 | the rows are in strictly ascending month order; they cover exactly the months with a Revenue or COGS row; each row is built from that month's reference Revenue and COGS totals |
| Metrics.OpexBreakdown | agent/tools.py:53-58 | the rows are non-increasing in USD and have distinct categories; they cover exactly the opex categories with a row in the month; each holds its category's reference total, and they add up to the month's opex total |
| Metrics.EbitdaOf | agent/tools.py:72-73 | in an EBITDA row, EBITDA plus COGS plus opex equals revenue |
| Metrics.EbitdaSeries | agent/tools.py:60-74 | the rows are in strictly ascending month order; they cover exactly the months with a Revenue, COGS or opex row; each row holds that month's reference totals |
| Metrics.OpexBreakdownMatchesEbitda | agent/tools.py:53-73 | the opex breakdown of a month adds up to the opex of that month's EBITDA row |
| Metrics.GrossMarginMatchesEbitda | agent/tools.py:39-73 | the margin table and the EBITDA table agree on the revenue and COGS of every month they share |
| Metrics.Trailing | agent/tools.py:79 | the window is the last min(3, n) EBITDA values, in order |
| Metrics.Negatives | agent/tools.py:82 | the negative values of the window, each as many times as it occurs there, and nothing else |
| Metrics.SumOfNegatives | agent/tools.py:82 | the sum of the negative values is negative when one exists |
| Metrics.AverageBurn | agent/tools.py:82 | the burn is never negative; it is 0 exactly when no value is negative; otherwise it is minus the mean of the negative values |
| Metrics.LatestCash | agent/tools.py:85 | the chosen cash row is in the table and no row has a later month |
| Metrics.LatestCashOfGreatestMonth | agent/tools.py:85 | when one row has a month later than all others, it is the one chosen |
| Metrics.RunwayOfWindow | agent/tools.py:80-86 | an empty window is NoData; a non-empty window with no loss is Unlimited; a loss with an empty cash table is an error; otherwise months times burn equals the latest cash |
| Metrics.EmptySeries | agent/tools.py:66 | the EBITDA table is empty exactly when no month has a Revenue, COGS or opex row |
| Metrics.CashRunwayMonths | agent/tools.py:76-86 | the runway is that of the last three EBITDA values and the cash table; it is NoData exactly when the ledger has no Revenue, COGS or opex row |
| Metrics.RunwayOfThreeLosses | agent/tools.py:82-86 | losses of 1000, 2000 and 3000 with 12000 cash give a runway of 6 months |
| Metrics.RunwayIgnoresProfitableMonths | agent/tools.py:82-86 | in the window 500, -100, 300, only the loss counts, so the runway is the cash divided by 100 |
| Metrics.RepeatedLossesBurn | agent/tools.py:82 | a loss repeated in the window counts once per month: losses of 100, 100 and 400 give a burn of 200 |
| Metrics.GrossMarginPctAsWritten | agent/tools.py:39-51 | the function as written fails exactly when there is no Revenue or COGS row, and otherwise returns the margin table |
| Metrics.EbitdaSeriesAsWritten | agent/tools.py:60-74 | the function as written fails exactly when there is no Revenue, COGS or opex row, and otherwise returns the EBITDA table |
| Metrics.CashRunwayAsWritten | agent/tools.py:76-86 | the function as written never reports NoData; it raises the KeyError (`NoMonthColumn`) exactly when the EBITDA table would be empty, and otherwise agrees with the intended runway, including its IndexError (`EmptyCashTable`) on an empty cash table |
| Metrics.NoLedgerRowsRaises | agent/tools.py:78-81 | with a cash row but no ledger rows, the as-written runway fails while the intended one is NoData |
| Metrics.OpexOnlyLedgerHasNoMargin | agent/tools.py:44-51 | a ledger with one opex row makes the as-written margin table fail, where the intended table is empty |
| Metrics.OtherOnlyLedgerHasNoEbitda | agent/tools.py:60-74 | a ledger whose one row is neither Revenue, COGS nor opex makes the as-written EBITDA table fail, where the intended table is empty |
| Planner.FindMonthFrom | agent/planner.py:13 | scanning from i finds the first position at or after i where `20\d{2}-\d{2}` matches, or reports that none exists |
| Planner.SearchMonth | agent/planner.py:13-14 | the month is None exactly when the pattern matches nowhere; otherwise it is the seven characters of the leftmost match |
| Planner.LeftmostUnique | agent/planner.py:13 | the leftmost match position is unique |
| Planner.LowerKeepsMonth | agent/planner.py:11-14 | lower-casing does not change the month found |
| Planner.StripKeepsMonth | agent/planner.py:11-14 | stripping does not change the month found |
| Planner.NoDashNoMonth | agent/planner.py:13 | a question without '-' has no month |
| Planner.MonthInsideLongerNumber | agent/planner.py:13 | the pattern is unanchored: "12025-067" yields "2025-06" |
| Planner.CashRunwayPhrase | agent/planner.py:23 | the phrase "cash runway" alone already satisfies the "runway and cash" test |
| Planner.Classify | agent/planner.py:15-26 | each intent is chosen exactly when its keyword test holds and every earlier test in the cascade fails; Help exactly when all five fail |
| Planner.RevenueAndBudget | agent/planner.py:15-16 | a text containing both "revenue" and "budget" is a revenue-vs-budget question, whatever else it contains |
| Planner.StripKeepsIntent | agent/planner.py:11-24 | stripping does not change the intent |
| Planner.ParseIntent | agent/planner.py:10-26 | the intent is the classification of the lower-cased question; Help carries no month; every other intent carries the leftmost month of the original question |
| Planner.ParseIntentIgnoresCase | agent/planner.py:11 | lower-casing a question first does not change its parse |
| Planner.ParseIntentIgnoresSurroundingSpace | agent/planner.py:11 | stripping a question first does not change its parse |
| Planner.StripLowerCommute | agent/planner.py:11 | lower-casing and stripping commute |
| Planner.ParsesMonthAndIntent | agent/planner.py:10-16 | "2025-06 Revenue vs Budget" parses to revenue-vs-budget for 2025-06 |
| Planner.MonthInWordsIsNotRecognised | agent/planner.py:12-16 | "June 2025 revenue vs budget" parses to revenue-vs-budget with no month |
| Planner.UnknownQuestionAsksForHelp | agent/planner.py:25-26 | "xyz nonsense" parses to Help with no month |

## Left out

- Floating point: amounts and rates are exact reals, so NaN, infinities, rounding and the order-dependence of float sums are not modelled.
- `_usd`: the branches for a frame with a `cash_usd` column and for a frame with no amount column are not modelled, because the calculators only convert ledger frames that carry `amount`.
- Ledger.RateOfUniqueTable: with duplicate (month, currency) keys in the rate table, pandas returns a Series rather than a rate; the model takes the last row with the key instead.
- Grouping.SortByUsdOrdered: pandas' default sort is not stable, so the order of categories with equal USD is unspecified; the model fixes one order and proves only the properties every order shares.
- Metrics.LatestCash: when several cash rows share the latest month, the row pandas picks is unspecified; the model takes the last such row in table order.
- Metrics.MonthlyTotals: the source groups by (month, account) and then selects an account; the model selects and then groups, which yields the same per-month totals.
- Metrics.CashRunwayMonths: the check `avg_burn is None` can never hold and has no counterpart.
- Metrics.SummarizeRevenueVsBudget: the result is a record rather than a dict; it carries the same six fields.
- Text.Lower: only ASCII letters are lower-cased; Python's full Unicode case mapping is not modelled.
- Text.Strip: only ASCII whitespace is stripped; Unicode spaces are not modelled.
- Planner.SearchMonth: `\d` matches only ASCII digits here; Python also matches other Unicode decimal digits.
- Planner.Intent: the `extra` field is always None in the parser and is not modelled.
- `app.py` is not part of this model. It is a Streamlit page that loads the workbook or the CSV fixtures, draws Plotly charts and exports a PDF snapshot, all of it I/O around the core. The test suite is not modelled either.
- The comment in `parse_intent` mentions months written as "june 2025". The code recognises only `20YY-MM`, and the model follows the code (see Planner.MonthInWordsIsNotRecognised).

## Findings

| source | as written | input that shows it | evidently intended | confidence | as-written member | corrected member |
|---|---|---|---|---|---|---|
| agent/tools.py:78-81 | `ebitda_series` fails on an empty ledger, so `cash_runway_months` raises and its `return None` is never reached | any cash table, with a ledger that has no Revenue, COGS or opex row | the runway is None (no data) when there is no EBITDA history | high, not executed | Metrics.CashRunwayAsWritten, Metrics.NoLedgerRowsRaises | Metrics.CashRunwayMonths |
| agent/tools.py:51 | `pd.DataFrame([]).sort_values("month")` raises KeyError, because an empty frame has no "month" column | a ledger with one opex row and no Revenue or COGS rows | an empty margin table | high, not executed | Metrics.GrossMarginPctAsWritten, Metrics.OpexOnlyLedgerHasNoMargin | Metrics.GrossMarginPct |
| agent/tools.py:74 | the same KeyError when no month has a Revenue, COGS or opex row | a ledger with one row of category "Other" | an empty EBITDA table | high, not executed | Metrics.EbitdaSeriesAsWritten, Metrics.OtherOnlyLedgerHasNoEbitda | Metrics.EbitdaSeries |

=== FILE: grouping.dfy ===
/** `groupby(...)["usd"].sum()`, `.get(key, 0.0)` and
    `sort_values("usd", ascending=False)` from agent/tools.py, on an
    association list of buckets: one bucket per distinct key, carrying the
    USD total of the rows with that key. */
module Grouping {
  import opened Ledger

  datatype Bucket = Bucket(key: string, usd: real)

  /** The column rows are grouped by. */
  datatype GroupKey = ByMonth | ByCategory

  function RowKey(r: LedgerRow, g: GroupKey): string
  {
    match g
    case ByMonth => r.month
    case ByCategory => r.category
  }

  function KeyFor(u: UsdRow, g: GroupKey): string
  {
    RowKey(u.row, g)
  }

  function Total(bs: seq<Bucket>): real
  {
    if |bs| == 0 then 0.0 else bs[0].usd + Total(bs[1..])
  }

  function KeySet(bs: seq<Bucket>): set<string>
  {
    if |bs| == 0 then {} else {bs[0].key} + KeySet(bs[1..])
  }

  /** A key is in the key set exactly when some bucket carries it. */
  lemma {:induction false} KeySetMembers(bs: seq<Bucket>, k: string)
    ensures k in KeySet(bs) <==> exists i :: 0 <= i < |bs| && bs[i].key == k
  {
    if |bs| > 0 {
      KeySetMembers(bs[1..], k);
      if exists i :: 0 <= i < |bs| && bs[i].key == k {
        var i :| 0 <= i < |bs| && bs[i].key == k;
        if i > 0 {
          assert bs[1..][i - 1].key == k;
        }
      }
      if k in KeySet(bs[1..]) {
        var i :| 0 <= i < |bs[1..]| && bs[1..][i].key == k;
        assert bs[i + 1].key == k;
      }
    }
  }

  predicate DistinctKeys(bs: seq<Bucket>)
  {
    forall i, j :: 0 <= i < j < |bs| ==> bs[i].key != bs[j].key
  }

  /** The group keys in bucket order (the index of the grouped series). */
  function Keys(bs: seq<Bucket>): (ks: seq<string>)
    ensures forall k :: k in ks <==> k in KeySet(bs)
  {
    var ks := seq(|bs|, i requires 0 <= i < |bs| => bs[i].key);
    assert forall k :: k in ks <==> k in KeySet(bs) by {
      forall k ensures k in ks <==> k in KeySet(bs) {
        KeySetMembers(bs, k);
        if k in KeySet(bs) {
          var i :| 0 <= i < |bs| && bs[i].key == k;
          assert ks[i] == k;
        }
      }
    }
    ks
  }

  /** `grouped.get(k, 0.0)`: the total of the bucket keyed `k`, or 0.0
      when there is none. */
  function Lookup(bs: seq<Bucket>, k: string): real
  {
    if |bs| == 0 then 0.0
    else if bs[0].key == k then bs[0].usd
    else Lookup(bs[1..], k)
  }

  lemma KeySetCons(b: Bucket, bs: seq<Bucket>)
    ensures KeySet([b] + bs) == {b.key} + KeySet(bs)
  {
    assert ([b] + bs)[1..] == bs;
  }

  lemma DistinctCons(b: Bucket, bs: seq<Bucket>)
    ensures DistinctKeys([b] + bs) <==> DistinctKeys(bs) && b.key !in KeySet(bs)
  {
    var r := [b] + bs;
    if DistinctKeys(r) {
      forall i, j | 0 <= i < j < |bs| ensures bs[i].key != bs[j].key {
        assert r[i + 1] == bs[i] && r[j + 1] == bs[j];
      }
      forall j | 0 <= j < |bs| ensures bs[j].key != b.key {
        assert r[0] == b && r[j + 1] == bs[j];
      }
      KeySetMembers(bs, b.key);
    }
    if DistinctKeys(bs) && b.key !in KeySet(bs) {
      forall i, j | 0 <= i < j < |r| ensures r[i].key != r[j].key {
        if i == 0 {
          KeySetMembers(bs, r[j].key);
          assert r[j] == bs[j - 1];
        } else {
          assert r[i] == bs[i - 1] && r[j] == bs[j - 1];
        }
      }
    }
  }

  /** A bucket that a duplicate-free list contains is what `Lookup` finds. */
  lemma {:induction false} LookupMember(bs: seq<Bucket>, b: Bucket)
    requires DistinctKeys(bs)
    requires b in bs
    ensures Lookup(bs, b.key) == b.usd
  {
    if bs[0] != b {
      DistinctCons(bs[0], bs[1..]);
      assert bs == [bs[0]] + bs[1..];
      assert b in bs[1..];
      KeySetCons(bs[0], bs[1..]);
      assert bs[0].key != b.key;
      LookupMember(bs[1..], b);
    }
  }

  /** Adds `v` to the bucket keyed `k`, opening a new bucket at the end
      when there is none. */
  function AddTo(bs: seq<Bucket>, k: string, v: real): (r: seq<Bucket>)
    ensures |r| == |bs| || |r| == |bs| + 1
  {
    if |bs| == 0 then [Bucket(k, v)]
    else if bs[0].key == k then [Bucket(k, bs[0].usd + v)] + bs[1..]
    else [bs[0]] + AddTo(bs[1..], k, v)
  }

  /** Adding to a bucket opens at most one new key and keeps keys distinct. */
  lemma {:induction false} AddToKeys(bs: seq<Bucket>, k: string, v: real)
    ensures KeySet(AddTo(bs, k, v)) == KeySet(bs) + {k}
    ensures DistinctKeys(bs) ==> DistinctKeys(AddTo(bs, k, v))
  {
    var r := AddTo(bs, k, v);
    if |bs| == 0 {
      KeySetCons(Bucket(k, v), []);
    } else if bs[0].key == k {
      assert bs == [bs[0]] + bs[1..];
      KeySetCons(bs[0], bs[1..]);
      KeySetCons(r[0], bs[1..]);
      DistinctCons(bs[0], bs[1..]);
      DistinctCons(r[0], bs[1..]);
    } else {
      var rest := AddTo(bs[1..], k, v);
      AddToKeys(bs[1..], k, v);
      assert bs == [bs[0]] + bs[1..];
      KeySetCons(bs[0], bs[1..]);
      KeySetCons(bs[0], rest);
      DistinctCons(bs[0], bs[1..]);
      DistinctCons(bs[0], rest);
    }
  }

  /** Adding `v` under `k` raises the total, and the lookup of `k`, by `v`
      and leaves every other lookup alone. */
  lemma {:induction false} AddToSums(bs: seq<Bucket>, k: string, v: real)
    ensures Total(AddTo(bs, k, v)) == Total(bs) + v
    ensures forall k' :: Lookup(AddTo(bs, k, v), k') == Lookup(bs, k') + (if k' == k then v else 0.0)
  {
    var r := AddTo(bs, k, v);
    if |bs| > 0 {
      assert r[1..] == if bs[0].key == k then bs[1..] else AddTo(bs[1..], k, v);
      if bs[0].key != k {
        AddToSums(bs[1..], k, v);
      }
    }
  }

  /** Reference definition: the USD total of the rows whose key is `k`. */
  function SumKey(rows: seq<UsdRow>, g: GroupKey, k: string): real
  {
    if |rows| == 0 then 0.0
    else SumKey(rows[..|rows| - 1], g, k) + (if KeyFor(rows[|rows| - 1], g) == k then rows[|rows| - 1].usd else 0.0)
  }

  lemma SumKeyAppend(rows: seq<UsdRow>, u: UsdRow, g: GroupKey, k: string)
    ensures SumKey(rows + [u], g, k) == SumKey(rows, g, k) + (if KeyFor(u, g) == k then u.usd else 0.0)
  {
    assert (rows + [u])[..|rows|] == rows;
  }

  /** `rows.groupby(column)["usd"].sum()`: one bucket per key present, each
      holding the total of its rows. The buckets come in order of first
      appearance, an order of this model's choosing (pandas sorts the keys);
      every caller either re-sorts them or only looks them up. */
  function GroupBy(rows: seq<UsdRow>, g: GroupKey): (r: seq<Bucket>)
    ensures DistinctKeys(r)
    ensures forall k :: Lookup(r, k) == SumKey(rows, g, k)
    ensures Total(r) == SumUsd(rows)
  {
    if |rows| == 0 then []
    else
      var init := rows[..|rows| - 1];
      var last := rows[|rows| - 1];
      AddToKeys(GroupBy(init, g), KeyFor(last, g), last.usd);
      AddToSums(GroupBy(init, g), KeyFor(last, g), last.usd);
      AddTo(GroupBy(init, g), KeyFor(last, g), last.usd)
  }

  /** The groups are exactly the keys that occur among the rows. */
  lemma {:induction false} GroupByKeys(rows: seq<UsdRow>, g: GroupKey, k: string)
    ensures k in KeySet(GroupBy(rows, g)) <==> exists i :: 0 <= i < |rows| && KeyFor(rows[i], g) == k
  {
    if |rows| > 0 {
      var init := rows[..|rows| - 1];
      var last := rows[|rows| - 1];
      GroupByKeys(init, g, k);
      AddToKeys(GroupBy(init, g), KeyFor(last, g), last.usd);
      if k in KeySet(GroupBy(rows, g)) && k != KeyFor(last, g) {
        var i :| 0 <= i < |init| && KeyFor(init[i], g) == k;
        assert rows[i] == init[i];
      }
      if exists i :: 0 <= i < |rows| && KeyFor(rows[i], g) == k {
        var i :| 0 <= i < |rows| && KeyFor(rows[i], g) == k;
        if i < |init| {
          assert init[i] == rows[i];
        }
      }
    }
  }

  /** A key no bucket carries looks up to 0.0. */
  lemma {:induction false} LookupAbsent(bs: seq<Bucket>, k: string)
    requires k !in KeySet(bs)
    ensures Lookup(bs, k) == 0.0
  {
    if |bs| > 0 {
      assert bs == [bs[0]] + bs[1..];
      KeySetCons(bs[0], bs[1..]);
      LookupAbsent(bs[1..], k);
    }
  }

  /* ---------------------------------------------------------------------
     Ordering by total, largest first
     --------------------------------------------------------------------- */

  predicate NonIncreasing(bs: seq<Bucket>)
  {
    forall i, j :: 0 <= i < j < |bs| ==> bs[i].usd >= bs[j].usd
  }

  lemma NonIncreasingTail(s: seq<Bucket>)
    requires NonIncreasing(s) && |s| > 0
    ensures NonIncreasing(s[1..])
  {
    forall i, j | 0 <= i < j < |s| - 1 ensures s[1..][i].usd >= s[1..][j].usd {
      assert s[1..][i] == s[i + 1] && s[1..][j] == s[j + 1];
    }
  }

  lemma NonIncreasingCons(b: Bucket, s: seq<Bucket>)
    requires NonIncreasing(s)
    requires forall c :: c in s ==> b.usd >= c.usd
    ensures NonIncreasing([b] + s)
  {
    var r := [b] + s;
    forall i, j | 0 <= i < j < |r| ensures r[i].usd >= r[j].usd {
      if i > 0 {
        assert r[i] == s[i - 1] && r[j] == s[j - 1];
      } else {
        assert r[j] in s;
      }
    }
  }

  /** Places `b` before the first bucket whose total is not larger than
      `b`'s, so it goes ahead of buckets with an equal total. */
  function InsertByUsd(b: Bucket, s: seq<Bucket>): (r: seq<Bucket>)
    ensures multiset(r) == multiset(s) + multiset{b}
  {
    if |s| == 0 then [b]
    else if b.usd >= s[0].usd then [b] + s
    else
      assert s == [s[0]] + s[1..];
      [s[0]] + InsertByUsd(b, s[1..])
  }

  /** Inserting into a list ordered largest first keeps it so. */
  lemma {:induction false} InsertByUsdOrdered(b: Bucket, s: seq<Bucket>)
    requires NonIncreasing(s)
    ensures NonIncreasing(InsertByUsd(b, s))
  {
    if |s| == 0 {
    } else if b.usd >= s[0].usd {
      NonIncreasingCons(b, s);
    } else {
      NonIncreasingTail(s);
      InsertByUsdOrdered(b, s[1..]);
      var rest := InsertByUsd(b, s[1..]);
      forall c | c in rest ensures s[0].usd >= c.usd {
        assert c in multiset(rest);
        if c != b {
          assert c in multiset(s[1..]);
          var j :| 0 <= j < |s[1..]| && s[1..][j] == c;
          assert s[j + 1] == c;
        }
      }
      NonIncreasingCons(s[0], rest);
    }
  }

  /** Inserting keeps the total and the key set, and keeps keys distinct
      when the new key is fresh. */
  lemma {:induction false} InsertByUsdKeeps(b: Bucket, s: seq<Bucket>)
    ensures Total(InsertByUsd(b, s)) == b.usd + Total(s)
    ensures KeySet(InsertByUsd(b, s)) == KeySet(s) + {b.key}
    ensures DistinctKeys(s) && b.key !in KeySet(s) ==> DistinctKeys(InsertByUsd(b, s))
  {
    var r := InsertByUsd(b, s);
    if |s| == 0 {
      KeySetCons(b, []);
      DistinctCons(b, []);
    } else if b.usd >= s[0].usd {
      KeySetCons(b, s);
      DistinctCons(b, s);
      assert r[1..] == s;
    } else {
      var rest := InsertByUsd(b, s[1..]);
      InsertByUsdKeeps(b, s[1..]);
      assert s == [s[0]] + s[1..];
      assert r == [s[0]] + rest;
      assert r[1..] == rest;
      KeySetCons(s[0], s[1..]);
      KeySetCons(s[0], rest);
      DistinctCons(s[0], s[1..]);
      DistinctCons(s[0], rest);
    }
  }

  /** `sort_values("usd", ascending=False)` by insertion. */
  function SortByUsd(bs: seq<Bucket>): seq<Bucket>
  {
    if |bs| == 0 then [] else InsertByUsd(bs[0], SortByUsd(bs[1..]))
  }

  /** Sorting yields the same buckets, largest total first. Buckets with
      equal totals come out in some order; which one is not promised. */
  lemma {:induction false} SortByUsdOrdered(bs: seq<Bucket>)
    ensures NonIncreasing(SortByUsd(bs))
    ensures multiset(SortByUsd(bs)) == multiset(bs)
  {
    if |bs| > 0 {
      SortByUsdOrdered(bs[1..]);
      InsertByUsdOrdered(bs[0], SortByUsd(bs[1..]));
      assert bs == [bs[0]] + bs[1..];
    }
  }

  /** Sorting keeps the total. */
  lemma {:induction false} SortByUsdTotal(bs: seq<Bucket>)
    ensures Total(SortByUsd(bs)) == Total(bs)
  {
    if |bs| > 0 {
      var rest := SortByUsd(bs[1..]);
      SortByUsdTotal(bs[1..]);
      InsertByUsdKeeps(bs[0], rest);
    }
  }

  /** Sorting keeps the key set and distinctness of keys. */
  lemma {:induction false} SortByUsdKeys(bs: seq<Bucket>)
    ensures KeySet(SortByUsd(bs)) == KeySet(bs)
    ensures DistinctKeys(bs) ==> DistinctKeys(SortByUsd(bs))
  {
    if |bs| > 0 {
      var rest := SortByUsd(bs[1..]);
      assert SortByUsd(bs) == InsertByUsd(bs[0], rest);
      SortByUsdKeys(bs[1..]);
      InsertByUsdKeeps(bs[0], rest);
      assert KeySet(bs) == KeySet(bs[1..]) + {bs[0].key} by {
        assert bs == [bs[0]] + bs[1..];
        KeySetCons(bs[0], bs[1..]);
      }
      if DistinctKeys(bs) {
        assert DistinctKeys(bs[1..]) && bs[0].key !in KeySet(bs[1..]) by {
          assert bs == [bs[0]] + bs[1..];
          DistinctCons(bs[0], bs[1..]);
        }
      }
    }
  }
}

=== FILE: ledger.dfy ===
/** Ledger rows, the exchange-rate table and the conversion of amounts to
    USD (`_usd` and `opex_mask` in agent/tools.py), together with the row
    filters the metric calculators apply and `Contribution`, an independent
    reference for "the USD total of the rows a filter selects". */
module Ledger {
  import opened Wrappers
  import opened Text

  const REVENUE: string := "Revenue"
  const COGS: string := "COGS"
  const OPEX_PREFIX: string := "Opex:"

  /** One actual or budgeted line; `month` is the `YYYY-MM` text. */
  datatype LedgerRow = LedgerRow(month: string, entity: string, category: string, currency: string, amount: real)

  /** One row of the exchange-rate table. */
  datatype FxRate = FxRate(month: string, currency: string, rateToUsd: real)

  /** One cash balance observation. */
  datatype CashRow = CashRow(month: string, cashUsd: real)

  /** A ledger row with the `usd` column `_usd` adds. */
  datatype UsdRow = UsdRow(row: LedgerRow, usd: real)

  /** The (month, currency) index of the exchange-rate table. */
  datatype FxKey = FxKey(month: string, currency: string)

  function KeyOf(f: FxRate): FxKey
  {
    FxKey(f.month, f.currency)
  }

  /** Every (month, currency) pair appears at most once. */
  ghost predicate UniqueKeys(fx: seq<FxRate>)
  {
    forall i, j :: 0 <= i < j < |fx| ==> KeyOf(fx[i]) != KeyOf(fx[j])
  }

  /** The factor `_usd` multiplies an amount by: the `rate_to_usd` indexed
      under (month, currency), or 1.0 when the table has no such row. The
      table is searched from its end, so if a key repeats the last row
      carrying it wins. */
  function Rate(fx: seq<FxRate>, month: string, currency: string): real
  {
    if |fx| == 0 then 1.0
    else if KeyOf(fx[|fx| - 1]) == FxKey(month, currency) then fx[|fx| - 1].rateToUsd
    else Rate(fx[..|fx| - 1], month, currency)
  }

  /** With a duplicate-free table, the rate for a key is the rate of the
      table row carrying that key. */
  lemma {:induction false} RateOfUniqueTable(fx: seq<FxRate>, j: int)
    requires UniqueKeys(fx)
    requires 0 <= j < |fx|
    ensures Rate(fx, fx[j].month, fx[j].currency) == fx[j].rateToUsd
  {
    if j < |fx| - 1 {
      var init := fx[..|fx| - 1];
      assert init[j] == fx[j];
      assert KeyOf(fx[j]) != KeyOf(fx[|fx| - 1]);
      RateOfUniqueTable(init, j);
    }
  }

  /** A key the table lacks converts at 1.0. */
  lemma {:induction false} RateOfMissingKey(fx: seq<FxRate>, month: string, currency: string)
    requires forall j :: 0 <= j < |fx| ==> KeyOf(fx[j]) != FxKey(month, currency)
    ensures Rate(fx, month, currency) == 1.0
  {
    if |fx| > 0 {
      var init := fx[..|fx| - 1];
      assert forall j :: 0 <= j < |init| ==> init[j] == fx[j];
      RateOfMissingKey(init, month, currency);
    }
  }

  function Convert(r: LedgerRow, fx: seq<FxRate>): UsdRow
  {
    UsdRow(r, r.amount * Rate(fx, r.month, r.currency))
  }

  /** `_usd` on the `amount` column: the same rows in the same order, each
      carrying its amount times the rate `Rate` looks up. */
  function ToUsd(rows: seq<LedgerRow>, fx: seq<FxRate>): (out: seq<UsdRow>)
    ensures |out| == |rows|
    ensures forall i :: 0 <= i < |rows| ==> out[i] == Convert(rows[i], fx)
  {
    if |rows| == 0 then [] else ToUsd(rows[..|rows| - 1], fx) + [Convert(rows[|rows| - 1], fx)]
  }

  /** A row whose (month, currency) the rate table lacks keeps its amount
      as its USD value. */
  lemma ToUsdDefaultsToOne(rows: seq<LedgerRow>, fx: seq<FxRate>, i: int)
    requires 0 <= i < |rows|
    requires forall j :: 0 <= j < |fx| ==> KeyOf(fx[j]) != FxKey(rows[i].month, rows[i].currency)
    ensures ToUsd(rows, fx)[i] == UsdRow(rows[i], rows[i].amount)
  {
    RateOfMissingKey(fx, rows[i].month, rows[i].currency);
  }

  lemma ToUsdAppend(rows: seq<LedgerRow>, r: LedgerRow, fx: seq<FxRate>)
    ensures ToUsd(rows + [r], fx) == ToUsd(rows, fx) + [Convert(r, fx)]
  {
    assert (rows + [r])[..|rows|] == rows;
  }

  lemma SumUsdAppend(rows: seq<UsdRow>, u: UsdRow)
    ensures SumUsd(rows + [u]) == SumUsd(rows) + u.usd
  {
    assert (rows + [u])[..|rows|] == rows;
  }

  /** `opex_mask`: operating-expense categories carry the "Opex:" prefix. */
  predicate IsOpex(category: string)
  {
    StartsWith(category, OPEX_PREFIX)
  }

  /** The opex mask holds exactly of the categories written as "Opex:"
      followed by anything. */
  lemma OpexMaskIsPrefix(c: string)
    ensures IsOpex(c) <==> exists t :: c == OPEX_PREFIX + t
  {
    if IsOpex(c) {
      assert c == OPEX_PREFIX + c[|OPEX_PREFIX|..];
    }
    if exists t :: c == OPEX_PREFIX + t {
      var t :| c == OPEX_PREFIX + t;
      assert c[..|OPEX_PREFIX|] == OPEX_PREFIX;
    }
  }

  /** `str.startswith` compares exactly: the mask is case-sensitive and
      needs the colon. */
  lemma OpexMaskIsCaseSensitive()
    ensures IsOpex("Opex:Rent")
    ensures !IsOpex("opex:Rent") && !IsOpex("OPEX:Rent") && !IsOpex("Opex Rent")
  {
    assert "Opex:Rent"[..5] == OPEX_PREFIX;
    assert "opex:Rent"[0] != OPEX_PREFIX[0];
    assert "OPEX:Rent"[1] != OPEX_PREFIX[1];
    assert "Opex Rent"[4] != OPEX_PREFIX[4];
  }

  /** Revenue and COGS are not opex categories and differ from each other. */
  lemma CategoriesDisjoint(c: string)
    ensures !(Selects(Account(REVENUE), c) && Selects(Account(COGS), c))
    ensures !(Selects(Account(REVENUE), c) && Selects(OpexAccounts, c))
    ensures !(Selects(Account(COGS), c) && Selects(OpexAccounts, c))
  {
    assert REVENUE[0] != COGS[0];
    assert REVENUE[..5] != OPEX_PREFIX;
    assert |COGS| < |OPEX_PREFIX|;
  }

  /** Which account categories a calculation adds up. */
  datatype Selector = Account(name: string) | OpexAccounts

  predicate Selects(sel: Selector, category: string)
  {
    match sel
    case Account(name) => category == name
    case OpexAccounts => IsOpex(category)
  }

  /** A row passes the month filter (when one is given), the entity filter
      (when one is given) and the category selector. */
  predicate InScope(r: LedgerRow, month: Option<string>, entity: Option<string>, sel: Selector)
  {
    && (month.Some? ==> r.month == month.value)
    && (entity.Some? ==> r.entity == entity.value)
    && Selects(sel, r.category)
  }

  /** Boolean-mask selection on raw ledger rows: every matching row is kept,
      as often as it occurs, in order. */
  function FilterRows(rows: seq<LedgerRow>, month: Option<string>, entity: Option<string>, sel: Selector): (out: seq<LedgerRow>)
    ensures forall r :: r in out <==> r in rows && InScope(r, month, entity, sel)
    ensures forall r :: multiset(out)[r] == if InScope(r, month, entity, sel) then multiset(rows)[r] else 0
  {
    if |rows| == 0 then []
    else
      var last := rows[|rows| - 1];
      assert rows == rows[..|rows| - 1] + [last];
      FilterRows(rows[..|rows| - 1], month, entity, sel) + (if InScope(last, month, entity, sel) then [last] else [])
  }

  /** Boolean-mask selection on converted rows: every matching row is kept,
      as often as it occurs, in order. */
  function FilterUsd(rows: seq<UsdRow>, month: Option<string>, entity: Option<string>, sel: Selector): (out: seq<UsdRow>)
    ensures forall u :: u in out <==> u in rows && InScope(u.row, month, entity, sel)
    ensures forall u :: multiset(out)[u] == if InScope(u.row, month, entity, sel) then multiset(rows)[u] else 0
  {
    if |rows| == 0 then []
    else
      var last := rows[|rows| - 1];
      assert rows == rows[..|rows| - 1] + [last];
      FilterUsd(rows[..|rows| - 1], month, entity, sel) + (if InScope(last.row, month, entity, sel) then [last] else [])
  }

  lemma FilterRowsAppend(rows: seq<LedgerRow>, r: LedgerRow, month: Option<string>, entity: Option<string>, sel: Selector)
    ensures FilterRows(rows + [r], month, entity, sel)
         == FilterRows(rows, month, entity, sel) + (if InScope(r, month, entity, sel) then [r] else [])
  {
    assert (rows + [r])[..|rows|] == rows;
  }

  lemma FilterUsdAppend(rows: seq<UsdRow>, u: UsdRow, month: Option<string>, entity: Option<string>, sel: Selector)
    ensures FilterUsd(rows + [u], month, entity, sel)
         == FilterUsd(rows, month, entity, sel) + (if InScope(u.row, month, entity, sel) then [u] else [])
  {
    assert (rows + [u])[..|rows|] == rows;
  }

  /** `df["usd"].sum()`; the sum of no rows is 0.0. */
  function SumUsd(rows: seq<UsdRow>): real
  {
    if |rows| == 0 then 0.0 else SumUsd(rows[..|rows| - 1]) + rows[|rows| - 1].usd
  }

  /** Reference definition: the USD value of the rows of one month that the
      entity filter and the selector keep, computed straight from the raw
      rows and the rate table. */
  function Contribution(rows: seq<LedgerRow>, fx: seq<FxRate>, month: string, entity: Option<string>, sel: Selector): real
  {
    if |rows| == 0 then 0.0
    else
      var r := rows[|rows| - 1];
      Contribution(rows[..|rows| - 1], fx, month, entity, sel)
        + (if InScope(r, Some(month), entity, sel) then Convert(r, fx).usd else 0.0)
  }

  /** Some row of `month` is selected. */
  ghost predicate HasRow(rows: seq<LedgerRow>, month: string, entity: Option<string>, sel: Selector)
  {
    exists i :: 0 <= i < |rows| && InScope(rows[i], Some(month), entity, sel)
  }

  /** A filter that keeps nothing contributes nothing. */
  lemma {:induction false} ContributionOfNothing(rows: seq<LedgerRow>, fx: seq<FxRate>, month: string, entity: Option<string>, sel: Selector)
    requires !HasRow(rows, month, entity, sel)
    ensures Contribution(rows, fx, month, entity, sel) == 0.0
  {
    if |rows| > 0 {
      var init := rows[..|rows| - 1];
      assert !HasRow(init, month, entity, sel) by {
        forall i | 0 <= i < |init| ensures !InScope(init[i], Some(month), entity, sel) {
          assert init[i] == rows[i];
        }
      }
      ContributionOfNothing(init, fx, month, entity, sel);
    }
  }

  /** Filtering raw rows, converting them and summing (the order
      `summarize_revenue_vs_budget` uses) yields the reference total. */
  lemma {:induction false} SumOfFilteredRows(rows: seq<LedgerRow>, fx: seq<FxRate>, month: string, entity: Option<string>, sel: Selector)
    ensures SumUsd(ToUsd(FilterRows(rows, Some(month), entity, sel), fx)) == Contribution(rows, fx, month, entity, sel)
  {
    if |rows| > 0 {
      var init := rows[..|rows| - 1];
      assert rows == init + [rows[|rows| - 1]];
      SumOfFilteredRows(init, fx, month, entity, sel);
      FilteredRowsStep(init, rows[|rows| - 1], fx, month, entity, sel);
    }
  }

  /** The inductive step of `SumOfFilteredRows`: appending one raw row. */
  lemma FilteredRowsStep(init: seq<LedgerRow>, last: LedgerRow, fx: seq<FxRate>, month: string, entity: Option<string>, sel: Selector)
    requires SumUsd(ToUsd(FilterRows(init, Some(month), entity, sel), fx)) == Contribution(init, fx, month, entity, sel)
    ensures SumUsd(ToUsd(FilterRows(init + [last], Some(month), entity, sel), fx)) == Contribution(init + [last], fx, month, entity, sel)
  {
    var keep := InScope(last, Some(month), entity, sel);
    ContributionStep(init, last, fx, month, entity, sel);
    FilterRowsAppend(init, last, Some(month), entity, sel);
    ConvertedSumStep(FilterRows(init, Some(month), entity, sel), last, fx, keep);
  }

  /** The reference total after appending one raw row. */
  lemma ContributionStep(init: seq<LedgerRow>, last: LedgerRow, fx: seq<FxRate>, month: string, entity: Option<string>, sel: Selector)
    ensures Contribution(init + [last], fx, month, entity, sel)
         == Contribution(init, fx, month, entity, sel) + (if InScope(last, Some(month), entity, sel) then Convert(last, fx).usd else 0.0)
  {
    assert (init + [last])[..|init|] == init;
  }

  /** Converting and summing rows with one row possibly appended. */
  lemma ConvertedSumStep(f: seq<LedgerRow>, last: LedgerRow, fx: seq<FxRate>, keep: bool)
    ensures SumUsd(ToUsd(f + (if keep then [last] else []), fx)) == SumUsd(ToUsd(f, fx)) + (if keep then Convert(last, fx).usd else 0.0)
  {
    if keep {
      ToUsdAppend(f, last, fx);
      SumUsdAppend(ToUsd(f, fx), Convert(last, fx));
    } else {
      assert f + [] == f;
    }
  }

  /** Converting every row first and then filtering on the month and the
      selector (the order `opex_breakdown` uses) yields the reference total. */
  lemma {:induction false} SumOfConvertedRows(rows: seq<LedgerRow>, fx: seq<FxRate>, month: string, sel: Selector)
    ensures SumUsd(FilterUsd(ToUsd(rows, fx), Some(month), None, sel)) == Contribution(rows, fx, month, None, sel)
  {
    if |rows| > 0 {
      var init := rows[..|rows| - 1];
      assert rows == init + [rows[|rows| - 1]];
      SumOfConvertedRows(init, fx, month, sel);
      ConvertedRowsStep(init, rows[|rows| - 1], fx, month, sel);
    }
  }

  /** The inductive step of `SumOfConvertedRows`: appending one raw row. */
  lemma ConvertedRowsStep(init: seq<LedgerRow>, last: LedgerRow, fx: seq<FxRate>, month: string, sel: Selector)
    requires SumUsd(FilterUsd(ToUsd(init, fx), Some(month), None, sel)) == Contribution(init, fx, month, None, sel)
    ensures SumUsd(FilterUsd(ToUsd(init + [last], fx), Some(month), None, sel)) == Contribution(init + [last], fx, month, None, sel)
  {
    var c := Convert(last, fx);
    ContributionStep(init, last, fx, month, None, sel);
    ToUsdAppend(init, last, fx);
    FilterUsdAppend(ToUsd(init, fx), c, Some(month), None, sel);
    UsdSumStep(FilterUsd(ToUsd(init, fx), Some(month), None, sel), c, InScope(last, Some(month), None, sel));
  }

  /** Summing converted rows with one row possibly appended. */
  lemma UsdSumStep(f: seq<UsdRow>, u: UsdRow, keep: bool)
    ensures SumUsd(f + (if keep then [u] else [])) == SumUsd(f) + (if keep then u.usd else 0.0)
  {
    if keep {
      SumUsdAppend(f, u);
    } else {
      assert f + [] == f;
    }
  }
}

=== FILE: metrics.dfy ===
/** The metric calculators of agent/tools.py: revenue against budget, the
    gross-margin trend, the opex breakdown, the EBITDA trend and the cash
    runway. Each is stated against `Contribution`, the reference total
    computed straight from the raw rows and the rate table. */
module Metrics {
  import opened Wrappers
  import opened Text
  import opened Ledger
  import opened Grouping

  /* ---------------------------------------------------------------------
     From grouped, converted rows back to the reference totals
     --------------------------------------------------------------------- */

  /** Reading one group of converted, filtered rows gives the reference
      total of the rows that fall into that group. */
  lemma {:induction false} GroupSumIsContribution(rows: seq<LedgerRow>, fx: seq<FxRate>, mf: Option<string>, sel: Selector,
                                                  g: GroupKey, k: string, month: string, sel2: Selector)
    requires forall r: LedgerRow :: (InScope(r, mf, None, sel) && RowKey(r, g) == k) <==> InScope(r, Some(month), None, sel2)
    ensures SumKey(FilterUsd(ToUsd(rows, fx), mf, None, sel), g, k) == Contribution(rows, fx, month, None, sel2)
  {
    if |rows| > 0 {
      var init := rows[..|rows| - 1];
      assert rows == init + [rows[|rows| - 1]];
      GroupSumIsContribution(init, fx, mf, sel, g, k, month, sel2);
      GroupSumStep(init, rows[|rows| - 1], fx, mf, sel, g, k, month, sel2);
    }
  }

  /** The inductive step of `GroupSumIsContribution`: appending one raw
      row. */
  lemma GroupSumStep(init: seq<LedgerRow>, last: LedgerRow, fx: seq<FxRate>, mf: Option<string>, sel: Selector,
                     g: GroupKey, k: string, month: string, sel2: Selector)
    requires (InScope(last, mf, None, sel) && RowKey(last, g) == k) <==> InScope(last, Some(month), None, sel2)
    requires SumKey(FilterUsd(ToUsd(init, fx), mf, None, sel), g, k) == Contribution(init, fx, month, None, sel2)
    ensures SumKey(FilterUsd(ToUsd(init + [last], fx), mf, None, sel), g, k) == Contribution(init + [last], fx, month, None, sel2)
  {
    var c := Convert(last, fx);
    ContributionStep(init, last, fx, month, None, sel2);
    ToUsdAppend(init, last, fx);
    FilterUsdAppend(ToUsd(init, fx), c, mf, None, sel);
    SumKeyStep(FilterUsd(ToUsd(init, fx), mf, None, sel), c, g, InScope(last, mf, None, sel));
  }

  /** Grouped sums of converted rows with one row possibly appended. */
  lemma SumKeyStep(f: seq<UsdRow>, u: UsdRow, g: GroupKey, keep: bool)
    ensures forall k :: SumKey(f + (if keep then [u] else []), g, k) == SumKey(f, g, k) + (if keep && KeyFor(u, g) == k then u.usd else 0.0)
  {
    if keep {
      forall k ensures SumKey(f + [u], g, k) == SumKey(f, g, k) + (if KeyFor(u, g) == k then u.usd else 0.0) {
        SumKeyAppend(f, u, g, k);
      }
    } else {
      assert f + [] == f;
    }
  }

  /** A converted row comes from a raw row at some index. */
  lemma ConvertedIndex(rows: seq<LedgerRow>, fx: seq<FxRate>, u: UsdRow) returns (j: int)
    requires u in ToUsd(rows, fx)
    ensures 0 <= j < |rows| && rows[j] == u.row
  {
    var us := ToUsd(rows, fx);
    j :| 0 <= j < |us| && us[j] == u;
  }

  /** The groups formed from converted, filtered rows are exactly the keys
      of the raw rows the filter keeps. */
  lemma GroupKeysOfConverted(rows: seq<LedgerRow>, fx: seq<FxRate>, mf: Option<string>, sel: Selector, g: GroupKey, k: string)
    ensures k in KeySet(GroupBy(FilterUsd(ToUsd(rows, fx), mf, None, sel), g))
        <==> exists j :: 0 <= j < |rows| && InScope(rows[j], mf, None, sel) && RowKey(rows[j], g) == k
  {
    var f := FilterUsd(ToUsd(rows, fx), mf, None, sel);
    GroupByKeys(f, g, k);
    KeysOfKeptRows(rows, fx, f, mf, sel, g, k);
  }

  /** The keys carried by any sequence holding exactly the converted rows
      that pass the filter are the keys of the raw rows that pass it. */
  lemma KeysOfKeptRows(rows: seq<LedgerRow>, fx: seq<FxRate>, f: seq<UsdRow>, mf: Option<string>, sel: Selector, g: GroupKey, k: string)
    requires forall u :: u in f <==> u in ToUsd(rows, fx) && InScope(u.row, mf, None, sel)
    ensures (exists i :: 0 <= i < |f| && KeyFor(f[i], g) == k)
        <==> exists j :: 0 <= j < |rows| && InScope(rows[j], mf, None, sel) && RowKey(rows[j], g) == k
  {
    if exists i :: 0 <= i < |f| && KeyFor(f[i], g) == k {
      var i :| 0 <= i < |f| && KeyFor(f[i], g) == k;
      assert f[i] in f;
      var j := ConvertedIndex(rows, fx, f[i]);
      assert InScope(rows[j], mf, None, sel) && RowKey(rows[j], g) == k;
    }
    if exists j :: 0 <= j < |rows| && InScope(rows[j], mf, None, sel) && RowKey(rows[j], g) == k {
      var j :| 0 <= j < |rows| && InScope(rows[j], mf, None, sel) && RowKey(rows[j], g) == k;
      var u := ToUsd(rows, fx)[j];
      assert u in ToUsd(rows, fx) && u.row == rows[j];
      var i :| 0 <= i < |f| && f[i] == u;
      assert KeyFor(f[i], g) == k;
    }
  }

  /** USD totals of the rows `sel` picks, grouped by month: the `rev`,
      `cogs` and `opex` series of agent/tools.py. */
  function MonthlyTotals(actuals: seq<LedgerRow>, fx: seq<FxRate>, sel: Selector): (r: seq<Bucket>)
    ensures DistinctKeys(r)
    ensures forall m :: Lookup(r, m) == Contribution(actuals, fx, m, None, sel)
    ensures forall m :: m in KeySet(r) <==> HasRow(actuals, m, None, sel)
  {
    var r := GroupBy(FilterUsd(ToUsd(actuals, fx), None, None, sel), ByMonth);
    assert forall m :: Lookup(r, m) == Contribution(actuals, fx, m, None, sel) by {
      forall m ensures Lookup(r, m) == Contribution(actuals, fx, m, None, sel) {
        GroupSumIsContribution(actuals, fx, None, sel, ByMonth, m, m, sel);
      }
    }
    assert forall m :: m in KeySet(r) <==> HasRow(actuals, m, None, sel) by {
      forall m ensures m in KeySet(r) <==> HasRow(actuals, m, None, sel) {
        GroupKeysOfConverted(actuals, fx, None, sel, ByMonth, m);
      }
    }
    r
  }

  /** `(part / whole * 100.0) if whole else None`. */
  function Percent(part: real, whole: real): (p: Option<real>)
    ensures p.None? <==> whole == 0.0
    ensures p.Some? ==> p.value * whole == part * 100.0
  {
    if whole != 0.0 then Some(part / whole * 100.0) else None
  }

  /* ---------------------------------------------------------------------
     summarize_revenue_vs_budget
     --------------------------------------------------------------------- */

  datatype RevenueVsBudget = RevenueVsBudget(month: string, entity: string, actualUsd: real, budgetUsd: real,
                                             deltaUsd: real, deltaPct: Option<real>)

  /** Python's `if entity:`: a missing or empty entity does not filter. */
  function EntityFilter(entity: Option<string>): Option<string>
  {
    if entity.Some? && entity.value != "" then entity else None
  }

  /** Actual and budgeted revenue of one month, optionally for one entity,
      and their difference. */
  function SummarizeRevenueVsBudget(actuals: seq<LedgerRow>, budget: seq<LedgerRow>, fx: seq<FxRate>,
                                    month: string, entity: Option<string>): (s: RevenueVsBudget)
    ensures s.month == month
    ensures entity == None || entity == Some("") ==> s.entity == "All"
    ensures entity.Some? && entity.value != "" ==> s.entity == entity.value
    ensures s.actualUsd == Contribution(actuals, fx, month, EntityFilter(entity), Account(REVENUE))
    ensures s.budgetUsd == Contribution(budget, fx, month, EntityFilter(entity), Account(REVENUE))
    ensures s.deltaUsd == s.actualUsd - s.budgetUsd
    ensures s.deltaPct == Percent(s.deltaUsd, s.budgetUsd)
  {
    var e := EntityFilter(entity);
    var a := ToUsd(FilterRows(actuals, Some(month), e, Account(REVENUE)), fx);
    var b := ToUsd(FilterRows(budget, Some(month), e, Account(REVENUE)), fx);
    var actual := if |a| > 0 then SumUsd(a) else 0.0;
    var budg := if |b| > 0 then SumUsd(b) else 0.0;
    SumOfFilteredRows(actuals, fx, month, e, Account(REVENUE));
    SumOfFilteredRows(budget, fx, month, e, Account(REVENUE));
    var diff := actual - budg;
    RevenueVsBudget(month, if e.Some? then e.value else "All", actual, budg, diff, Percent(diff, budg))
  }

  /** An entity (or month) that matches no revenue row on either side gives
      zero actual, zero budget, zero delta and no percentage. */
  lemma NoMatchingRevenue(actuals: seq<LedgerRow>, budget: seq<LedgerRow>, fx: seq<FxRate>, month: string, entity: Option<string>)
    requires !HasRow(actuals, month, EntityFilter(entity), Account(REVENUE))
    requires !HasRow(budget, month, EntityFilter(entity), Account(REVENUE))
    ensures SummarizeRevenueVsBudget(actuals, budget, fx, month, entity).actualUsd == 0.0
    ensures SummarizeRevenueVsBudget(actuals, budget, fx, month, entity).budgetUsd == 0.0
    ensures SummarizeRevenueVsBudget(actuals, budget, fx, month, entity).deltaUsd == 0.0
    ensures SummarizeRevenueVsBudget(actuals, budget, fx, month, entity).deltaPct == None
  {
    ContributionOfNothing(actuals, fx, month, EntityFilter(entity), Account(REVENUE));
    ContributionOfNothing(budget, fx, month, EntityFilter(entity), Account(REVENUE));
  }

  /* ---------------------------------------------------------------------
     gross_margin_pct
     --------------------------------------------------------------------- */

  datatype MarginRow = MarginRow(month: string, revenueUsd: real, cogsUsd: real, grossMarginPct: Option<real>)

  /** One row of the gross-margin table; the margin is undefined exactly
      when revenue is zero. */
  function MarginOf(month: string, rev: real, cogs: real): (row: MarginRow)
    ensures row.month == month && row.revenueUsd == rev && row.cogsUsd == cogs
    ensures row.grossMarginPct == Percent(rev - cogs, rev)
  {
    MarginRow(month, rev, cogs, Percent(rev - cogs, rev))
  }

  /** The months present in either of two monthly series, ascending:
      `sorted(set(a.index) | set(b.index))`. */
  function MonthUnion(a: seq<Bucket>, b: seq<Bucket>): (ms: seq<string>)
    ensures StrictlyAscending(ms)
    ensures forall m :: m in ms <==> m in KeySet(a) || m in KeySet(b)
  {
    SortedDistinct(Keys(a) + Keys(b))
  }

  function MarginRows(months: seq<string>, rev: seq<Bucket>, cogs: seq<Bucket>): (out: seq<MarginRow>)
    ensures |out| == |months|
    ensures forall i :: 0 <= i < |out| ==> out[i] == MarginOf(months[i], Lookup(rev, months[i]), Lookup(cogs, months[i]))
  {
    seq(|months|, i requires 0 <= i < |months| => MarginOf(months[i], Lookup(rev, months[i]), Lookup(cogs, months[i])))
  }

  /** What the gross-margin rows say, given monthly series that agree with
      the reference totals and the months they cover. */
  lemma MarginRowsMeaning(actuals: seq<LedgerRow>, fx: seq<FxRate>, months: seq<string>, rev: seq<Bucket>, cogs: seq<Bucket>)
    requires StrictlyAscending(months)
    requires forall m :: m in months <==> HasRow(actuals, m, None, Account(REVENUE)) || HasRow(actuals, m, None, Account(COGS))
    requires forall m :: Lookup(rev, m) == Contribution(actuals, fx, m, None, Account(REVENUE))
    requires forall m :: Lookup(cogs, m) == Contribution(actuals, fx, m, None, Account(COGS))
    ensures var out := MarginRows(months, rev, cogs);
            && (forall i, j :: 0 <= i < j < |out| ==> Below(out[i].month, out[j].month))
            && (forall m :: (exists i :: 0 <= i < |out| && out[i].month == m)
                        <==> HasRow(actuals, m, None, Account(REVENUE)) || HasRow(actuals, m, None, Account(COGS)))
            && (forall i :: 0 <= i < |out| ==> out[i] == MarginOf(out[i].month, Contribution(actuals, fx, out[i].month, None, Account(REVENUE)),
                                                                                Contribution(actuals, fx, out[i].month, None, Account(COGS))))
  {
    var out := MarginRows(months, rev, cogs);
    forall m ensures (exists i :: 0 <= i < |out| && out[i].month == m) <==> m in months {
      if m in months {
        var i :| 0 <= i < |months| && months[i] == m;
        assert out[i].month == m;
      }
    }
  }

  /** Revenue, COGS and gross margin for every month that has a Revenue
      or a COGS row, in ascending month order. */
  function GrossMarginPct(actuals: seq<LedgerRow>, fx: seq<FxRate>): (out: seq<MarginRow>)
    ensures forall i, j :: 0 <= i < j < |out| ==> Below(out[i].month, out[j].month)
    ensures forall m :: (exists i :: 0 <= i < |out| && out[i].month == m)
                    <==> HasRow(actuals, m, None, Account(REVENUE)) || HasRow(actuals, m, None, Account(COGS))
    ensures forall i :: 0 <= i < |out| ==> out[i] == MarginOf(out[i].month, Contribution(actuals, fx, out[i].month, None, Account(REVENUE)),
                                                                             Contribution(actuals, fx, out[i].month, None, Account(COGS)))
  {
    var rev := MonthlyTotals(actuals, fx, Account(REVENUE));
    var cogs := MonthlyTotals(actuals, fx, Account(COGS));
    var months := MonthUnion(rev, cogs);
    MarginRowsMeaning(actuals, fx, months, rev, cogs);
    MarginRows(months, rev, cogs)
  }

  /* ---------------------------------------------------------------------
     opex_breakdown
     --------------------------------------------------------------------- */

  /** A month has a row of opex category `c` exactly when one of its opex
      rows carries the category `c`. */
  lemma OpexRowsOfCategory(actuals: seq<LedgerRow>, month: string, c: string)
    ensures (IsOpex(c) && HasRow(actuals, month, None, Account(c)))
        <==> exists j :: 0 <= j < |actuals| && InScope(actuals[j], Some(month), None, OpexAccounts) && RowKey(actuals[j], ByCategory) == c
  {
  }

  /** The opex groups of a month, before sorting: one per opex category
      of that month, holding the category's reference total. */
  lemma OpexGroupsMeaning(actuals: seq<LedgerRow>, fx: seq<FxRate>, month: string)
    ensures var groups := GroupBy(FilterUsd(ToUsd(actuals, fx), Some(month), None, OpexAccounts), ByCategory);
            && (forall c :: c in KeySet(groups) <==> IsOpex(c) && HasRow(actuals, month, None, Account(c)))
            && (forall b :: b in groups ==> b.usd == Contribution(actuals, fx, month, None, Account(b.key)))
  {
    var groups := GroupBy(FilterUsd(ToUsd(actuals, fx), Some(month), None, OpexAccounts), ByCategory);
    forall c ensures c in KeySet(groups) <==> IsOpex(c) && HasRow(actuals, month, None, Account(c)) {
      GroupKeysOfConverted(actuals, fx, Some(month), OpexAccounts, ByCategory, c);
      OpexRowsOfCategory(actuals, month, c);
    }
    forall b | b in groups ensures b.usd == Contribution(actuals, fx, month, None, Account(b.key)) {
      KeySetMembers(groups, b.key);
      var i :| 0 <= i < |groups| && groups[i] == b;
      assert IsOpex(b.key);
      LookupMember(groups, b);
      GroupSumIsContribution(actuals, fx, Some(month), OpexAccounts, ByCategory, b.key, month, Account(b.key));
    }
  }

  /** The opex categories of one month with their USD totals, largest
      first; empty when the month has no opex row. */
  function OpexBreakdown(actuals: seq<LedgerRow>, fx: seq<FxRate>, month: string): (out: seq<Bucket>)
    ensures NonIncreasing(out)
    ensures DistinctKeys(out)
    ensures forall c :: c in KeySet(out) <==> IsOpex(c) && HasRow(actuals, month, None, Account(c))
    ensures forall b :: b in out ==> b.usd == Contribution(actuals, fx, month, None, Account(b.key))
    ensures Total(out) == Contribution(actuals, fx, month, None, OpexAccounts)
  {
    var opex := FilterUsd(ToUsd(actuals, fx), Some(month), None, OpexAccounts);
    SumOfConvertedRows(actuals, fx, month, OpexAccounts);
    OpexGroupsMeaning(actuals, fx, month);
    if |opex| == 0 then
      assert GroupBy(opex, ByCategory) == [];
      []
    else
      var groups := GroupBy(opex, ByCategory);
      SortByUsdOrdered(groups);
      SortByUsdTotal(groups);
      SortByUsdKeys(groups);
      var out := SortByUsd(groups);
      assert forall b :: b in out ==> b in groups by {
        forall b | b in out ensures b in groups {
          assert b in multiset(out);
        }
      }
      out
  }

  /* ---------------------------------------------------------------------
     ebitda_series
     --------------------------------------------------------------------- */

  datatype EbitdaRow = EbitdaRow(month: string, revenueUsd: real, cogsUsd: real, opexUsd: real, ebitdaUsd: real)

  /** One row of the EBITDA table: revenue less COGS less opex. */
  function EbitdaOf(month: string, rev: real, cogs: real, opex: real): (row: EbitdaRow)
    ensures row.month == month && row.revenueUsd == rev && row.cogsUsd == cogs && row.opexUsd == opex
    ensures row.ebitdaUsd + cogs + opex == rev
  {
    EbitdaRow(month, rev, cogs, opex, rev - cogs - opex)
  }

  function EbitdaRows(months: seq<string>, rev: seq<Bucket>, cogs: seq<Bucket>, opex: seq<Bucket>): (out: seq<EbitdaRow>)
    ensures |out| == |months|
    ensures forall i :: 0 <= i < |out|
              ==> out[i] == EbitdaOf(months[i], Lookup(rev, months[i]), Lookup(cogs, months[i]), Lookup(opex, months[i]))
  {
    seq(|months|, i requires 0 <= i < |months|
                    => EbitdaOf(months[i], Lookup(rev, months[i]), Lookup(cogs, months[i]), Lookup(opex, months[i])))
  }

  /** The months present in any of three monthly series, ascending:
      `sorted(set(a.index) | set(b.index) | set(c.index))`. */
  function MonthUnion3(a: seq<Bucket>, b: seq<Bucket>, c: seq<Bucket>): (ms: seq<string>)
    ensures StrictlyAscending(ms)
    ensures forall m :: m in ms <==> m in KeySet(a) || m in KeySet(b) || m in KeySet(c)
  {
    var ks := Keys(a) + Keys(b) + Keys(c);
    assert forall m :: m in ks <==> m in Keys(a) || m in Keys(b) || m in Keys(c);
    SortedDistinct(ks)
  }

  ghost predicate EbitdaMonth(actuals: seq<LedgerRow>, m: string)
  {
    HasRow(actuals, m, None, Account(REVENUE)) || HasRow(actuals, m, None, Account(COGS)) || HasRow(actuals, m, None, OpexAccounts)
  }

  /** What the EBITDA rows say, given monthly series that agree with the
      reference totals and the months they cover. */
  lemma EbitdaRowsMeaning(actuals: seq<LedgerRow>, fx: seq<FxRate>, months: seq<string>,
                          rev: seq<Bucket>, cogs: seq<Bucket>, opex: seq<Bucket>)
    requires StrictlyAscending(months)
    requires forall m :: m in months <==> EbitdaMonth(actuals, m)
    requires forall m :: Lookup(rev, m) == Contribution(actuals, fx, m, None, Account(REVENUE))
    requires forall m :: Lookup(cogs, m) == Contribution(actuals, fx, m, None, Account(COGS))
    requires forall m :: Lookup(opex, m) == Contribution(actuals, fx, m, None, OpexAccounts)
    ensures var out := EbitdaRows(months, rev, cogs, opex);
            && (forall i, j :: 0 <= i < j < |out| ==> Below(out[i].month, out[j].month))
            && (forall m :: (exists i :: 0 <= i < |out| && out[i].month == m) <==> EbitdaMonth(actuals, m))
            && (forall i :: 0 <= i < |out|
                  ==> out[i] == EbitdaOf(out[i].month, Contribution(actuals, fx, out[i].month, None, Account(REVENUE)),
                                         Contribution(actuals, fx, out[i].month, None, Account(COGS)),
                                         Contribution(actuals, fx, out[i].month, None, OpexAccounts)))
  {
    var out := EbitdaRows(months, rev, cogs, opex);
    forall m ensures (exists i :: 0 <= i < |out| && out[i].month == m) <==> m in months {
      if m in months {
        var i :| 0 <= i < |months| && months[i] == m;
        assert out[i].month == m;
      }
    }
  }

  /** Revenue, COGS, opex and EBITDA for every month that has a Revenue,
      COGS or opex row, in ascending month order. */
  function EbitdaSeries(actuals: seq<LedgerRow>, fx: seq<FxRate>): (out: seq<EbitdaRow>)
    ensures forall i, j :: 0 <= i < j < |out| ==> Below(out[i].month, out[j].month)
    ensures forall m :: (exists i :: 0 <= i < |out| && out[i].month == m) <==> EbitdaMonth(actuals, m)
    ensures forall i :: 0 <= i < |out|
              ==> out[i] == EbitdaOf(out[i].month, Contribution(actuals, fx, out[i].month, None, Account(REVENUE)),
                                     Contribution(actuals, fx, out[i].month, None, Account(COGS)),
                                     Contribution(actuals, fx, out[i].month, None, OpexAccounts))
  {
    var rev := MonthlyTotals(actuals, fx, Account(REVENUE));
    var cogs := MonthlyTotals(actuals, fx, Account(COGS));
    var opex := MonthlyTotals(actuals, fx, OpexAccounts);
    var months := MonthUnion3(rev, cogs, opex);
    EbitdaRowsMeaning(actuals, fx, months, rev, cogs, opex);
    EbitdaRows(months, rev, cogs, opex)
  }

  /** The opex breakdown of any month of the EBITDA series adds up to that
      month's opex. */
  lemma OpexBreakdownMatchesEbitda(actuals: seq<LedgerRow>, fx: seq<FxRate>, i: int)
    requires 0 <= i < |EbitdaSeries(actuals, fx)|
    ensures Total(OpexBreakdown(actuals, fx, EbitdaSeries(actuals, fx)[i].month)) == EbitdaSeries(actuals, fx)[i].opexUsd
  {
  }

  /** The gross-margin and EBITDA series agree on revenue and COGS in every
      month they share. */
  lemma GrossMarginMatchesEbitda(actuals: seq<LedgerRow>, fx: seq<FxRate>, i: int, j: int)
    requires 0 <= i < |GrossMarginPct(actuals, fx)| && 0 <= j < |EbitdaSeries(actuals, fx)|
    requires GrossMarginPct(actuals, fx)[i].month == EbitdaSeries(actuals, fx)[j].month
    ensures GrossMarginPct(actuals, fx)[i].revenueUsd == EbitdaSeries(actuals, fx)[j].revenueUsd
    ensures GrossMarginPct(actuals, fx)[i].cogsUsd == EbitdaSeries(actuals, fx)[j].cogsUsd
  {
  }

  /* ---------------------------------------------------------------------
     cash_runway_months
     --------------------------------------------------------------------- */

  /** `None`, `np.inf`, or cash divided by the monthly burn. */
  datatype Runway = NoData | Unlimited | Months(months: real)

  /** Run-time exceptions of the calculators: reading the latest balance
      of an empty cash table raises `IndexError` (`EmptyCashTable`), and
      sorting a frame built from no rows by "month" raises `KeyError`
      (`NoMonthColumn`). */
  datatype FrameError = EmptyCashTable | NoMonthColumn

  /** `tail(3)["ebitda_usd"]`: the EBITDA of the last (at most) three
      months of the series. */
  function Trailing(eb: seq<EbitdaRow>): (w: seq<real>)
    ensures |w| == if |eb| < 3 then |eb| else 3
    ensures forall i :: 0 <= i < |w| ==> w[i] == eb[|eb| - |w| + i].ebitdaUsd
  {
    var start := if |eb| < 3 then 0 else |eb| - 3;
    seq(|eb| - start, i requires 0 <= i < |eb| - start => eb[start + i].ebitdaUsd)
  }

  function Sum(xs: seq<real>): real
  {
    if |xs| == 0 then 0.0 else Sum(xs[..|xs| - 1]) + xs[|xs| - 1]
  }

  /** `last3[last3 < 0]`: the negative values, in order. */
  function Negatives(xs: seq<real>): (n: seq<real>)
    ensures forall x :: x in n <==> x in xs && x < 0.0
    ensures forall x :: multiset(n)[x] == if x < 0.0 then multiset(xs)[x] else 0
    ensures forall i :: 0 <= i < |n| ==> n[i] < 0.0
  {
    if |xs| == 0 then []
    else
      assert xs == xs[..|xs| - 1] + [xs[|xs| - 1]];
      Negatives(xs[..|xs| - 1]) + (if xs[|xs| - 1] < 0.0 then [xs[|xs| - 1]] else [])
  }

  /** A non-empty sum of negative numbers is negative. */
  lemma {:induction false} SumOfNegatives(xs: seq<real>)
    requires |xs| > 0
    requires forall i :: 0 <= i < |xs| ==> xs[i] < 0.0
    ensures Sum(xs) < 0.0
  {
    if |xs| > 1 {
      SumOfNegatives(xs[..|xs| - 1]);
    }
  }

  /** `Series.mean()`. */
  function Mean(xs: seq<real>): real
    requires |xs| > 0
  {
    Sum(xs) / (|xs| as real)
  }

  lemma MinusMean(total: real, count: real)
    requires total < 0.0 && count > 0.0
    ensures -(total / count) > 0.0
  {
  }

  /** The average monthly burn over a window: minus the mean of its
      negative EBITDA values, or zero when none is negative. It is never
      negative, and it is zero exactly when the window has no loss month. */
  function AverageBurn(w: seq<real>): (b: real)
    ensures b >= 0.0
    ensures b == 0.0 <==> forall i :: 0 <= i < |w| ==> w[i] >= 0.0
    ensures b != 0.0 ==> |Negatives(w)| > 0 && b == -Mean(Negatives(w))
  {
    var n := Negatives(w);
    if |n| > 0 then
      SumOfNegatives(n);
      assert n[0] in n;
      assert exists i :: 0 <= i < |w| && w[i] < 0.0;
      MinusMean(Sum(n), |n| as real);
      -Mean(n)
    else
      assert forall i :: 0 <= i < |w| ==> w[i] >= 0.0 by {
        forall i | 0 <= i < |w| ensures w[i] >= 0.0 {
          assert w[i] in w;
        }
      }
      0.0
  }

  /** `cash.sort_values("month")["cash_usd"].iloc[-1]`: the row with the
      greatest month. The default sort is not stable, so which of several
      rows sharing that month comes last is unspecified; the model picks
      the last one in table order. */
  function LatestCash(cash: seq<CashRow>): (c: CashRow)
    requires |cash| > 0
    ensures c in cash
    ensures forall i :: 0 <= i < |cash| ==> !Below(c.month, cash[i].month)
  {
    if |cash| == 1 then
      BelowIrreflexive(cash[0].month);
      cash[0]
    else
      var prev := LatestCash(cash[..|cash| - 1]);
      var last := cash[|cash| - 1];
      if Below(last.month, prev.month) then
        assert forall i :: 0 <= i < |cash| - 1 ==> cash[i] == cash[..|cash| - 1][i];
        BelowAsymmetric(last.month, prev.month);
        prev
      else
        assert forall i :: 0 <= i < |cash| ==> !Below(last.month, cash[i].month) by {
          forall i | 0 <= i < |cash| ensures !Below(last.month, cash[i].month) {
            if i < |cash| - 1 {
              assert cash[i] == cash[..|cash| - 1][i];
              BelowConnected(last.month, prev.month);
              if Below(last.month, cash[i].month) && Below(prev.month, last.month) {
                BelowTransitive(prev.month, last.month, cash[i].month);
              }
            } else {
              BelowIrreflexive(last.month);
            }
          }
        }
        last
  }

  /** When one row's month is later than every other row's, the latest
      balance is that row's balance. */
  lemma LatestCashOfGreatestMonth(cash: seq<CashRow>, k: int)
    requires 0 <= k < |cash|
    requires forall i :: 0 <= i < |cash| && i != k ==> Below(cash[i].month, cash[k].month)
    ensures LatestCash(cash) == cash[k]
  {
    var c := LatestCash(cash);
    var i :| 0 <= i < |cash| && cash[i] == c;
    if i != k {
      assert false;
    }
  }

  /** The runway for a window of trailing EBITDA values and a cash table. */
  function RunwayOfWindow(w: seq<real>, cash: seq<CashRow>): (r: Result<Runway, FrameError>)
    ensures r != Err(NoMonthColumn)
    ensures r == Ok(NoData) <==> |w| == 0
    ensures r == Ok(Unlimited) <==> |w| > 0 && forall i :: 0 <= i < |w| ==> w[i] >= 0.0
    ensures r.Err? <==> (exists i :: 0 <= i < |w| && w[i] < 0.0) && |cash| == 0
    ensures r.Ok? && r.value.Months? ==> |cash| > 0 && r.value.months * AverageBurn(w) == LatestCash(cash).cashUsd
  {
    if |w| == 0 then Ok(NoData)
    else
      var burn := AverageBurn(w);
      if burn == 0.0 then Ok(Unlimited)
      else if |cash| == 0 then Err(EmptyCashTable)
      else Ok(Months(LatestCash(cash).cashUsd / burn))
  }

  /** The EBITDA series is empty exactly when no row is Revenue, COGS or
      opex. */
  lemma EmptySeries(actuals: seq<LedgerRow>, fx: seq<FxRate>)
    ensures |EbitdaSeries(actuals, fx)| == 0 <==> forall m :: !EbitdaMonth(actuals, m)
  {
    var eb := EbitdaSeries(actuals, fx);
    if |eb| > 0 {
      assert EbitdaMonth(actuals, eb[0].month);
    }
  }

  /** Months of cash left at the average burn of the last three EBITDA
      months. */
  function CashRunwayMonths(cash: seq<CashRow>, actuals: seq<LedgerRow>, fx: seq<FxRate>): (r: Result<Runway, FrameError>)
    ensures r == RunwayOfWindow(Trailing(EbitdaSeries(actuals, fx)), cash)
    ensures r == Ok(NoData) <==> forall m :: !EbitdaMonth(actuals, m)
    ensures r != Err(NoMonthColumn)
  {
    EmptySeries(actuals, fx);
    RunwayOfWindow(Trailing(EbitdaSeries(actuals, fx)), cash)
  }

  lemma NegativesAppend(xs: seq<real>, x: real)
    ensures Negatives(xs + [x]) == Negatives(xs) + (if x < 0.0 then [x] else [])
  {
    assert (xs + [x])[..|xs|] == xs;
  }

  lemma NegativesOfThreeLosses()
    ensures Negatives([-1000.0, -2000.0, -3000.0]) == [-1000.0, -2000.0, -3000.0]
  {
    NegativesAppend([], -1000.0);
    NegativesAppend([-1000.0], -2000.0);
    NegativesAppend([-1000.0, -2000.0], -3000.0);
    assert [] + [-1000.0] == [-1000.0];
    assert [-1000.0] + [-2000.0] == [-1000.0, -2000.0];
    assert [-1000.0, -2000.0] + [-3000.0] == [-1000.0, -2000.0, -3000.0];
  }

  lemma SumOfThreeLosses()
    ensures Sum([-1000.0, -2000.0, -3000.0]) == -6000.0
  {
    assert Sum([-1000.0]) == -1000.0 by {
      assert [-1000.0][..0] == [];
    }
    assert Sum([-1000.0, -2000.0]) == -3000.0 by {
      assert [-1000.0, -2000.0][..1] == [-1000.0];
    }
    assert [-1000.0, -2000.0, -3000.0][..2] == [-1000.0, -2000.0];
  }

  lemma ThreeLossesBurn()
    ensures AverageBurn([-1000.0, -2000.0, -3000.0]) == 2000.0
  {
    NegativesOfThreeLosses();
    SumOfThreeLosses();
  }

  /** Three loss months of 1000, 2000 and 3000 burn 2000 a month on
      average, so 12000 of cash lasts six months. */
  lemma RunwayOfThreeLosses()
    ensures RunwayOfWindow([-1000.0, -2000.0, -3000.0], [CashRow("2025-06", 12000.0)]) == Ok(Months(6.0))
  {
    ThreeLossesBurn();
  }

  lemma NegativesOfMixedWindow()
    ensures Negatives([500.0, -100.0, 300.0]) == [-100.0]
  {
    NegativesAppend([], 500.0);
    NegativesAppend([500.0], -100.0);
    NegativesAppend([500.0, -100.0], 300.0);
    assert [] + [500.0] == [500.0];
    assert [500.0] + [-100.0] == [500.0, -100.0];
    assert [500.0, -100.0] + [300.0] == [500.0, -100.0, 300.0];
  }

  lemma MixedWindowBurn()
    ensures AverageBurn([500.0, -100.0, 300.0]) == 100.0
  {
    NegativesOfMixedWindow();
    assert Sum([-100.0]) == -100.0 by {
      assert [-100.0][..0] == [];
    }
  }

  lemma NegativesOfRepeatedLosses()
    ensures Negatives([-100.0, -100.0, -400.0]) == [-100.0, -100.0, -400.0]
  {
    NegativesAppend([], -100.0);
    NegativesAppend([-100.0], -100.0);
    NegativesAppend([-100.0, -100.0], -400.0);
    assert [] + [-100.0] == [-100.0];
    assert [-100.0] + [-100.0] == [-100.0, -100.0];
    assert [-100.0, -100.0] + [-400.0] == [-100.0, -100.0, -400.0];
  }

  /** A loss repeated in the window counts once per month: the burn of
      losses 100, 100 and 400 is 200, not the 250 of the distinct values. */
  lemma RepeatedLossesBurn()
    ensures AverageBurn([-100.0, -100.0, -400.0]) == 200.0
  {
    NegativesOfRepeatedLosses();
    var w := [-100.0, -100.0, -400.0];
    assert Sum(w) == -600.0 by {
      assert w[..2] == [-100.0, -100.0];
      assert w[..2][..1] == [-100.0];
      assert [-100.0][..0] == [];
    }
  }

  /** Profitable months do not count towards the burn: only the single loss
      of 100 does. */
  lemma RunwayIgnoresProfitableMonths(cashUsd: real)
    ensures RunwayOfWindow([500.0, -100.0, 300.0], [CashRow("2025-06", cashUsd)]) == Ok(Months(cashUsd / 100.0))
  {
    MixedWindowBurn();
  }

  /* ---------------------------------------------------------------------
     The tables as written: sorting a frame built from no rows
     --------------------------------------------------------------------- */

  /** `gross_margin_pct` as written. `pd.DataFrame(data)` built from an
      empty list has no columns, so `sort_values("month")` raises `KeyError`
      when no row is Revenue or COGS. Otherwise the rows are already in
      ascending month order and the sort keeps them. */
  function GrossMarginPctAsWritten(actuals: seq<LedgerRow>, fx: seq<FxRate>): (r: Result<seq<MarginRow>, FrameError>)
    ensures r.Err? <==> forall m :: !HasRow(actuals, m, None, Account(REVENUE)) && !HasRow(actuals, m, None, Account(COGS))
    ensures r.Ok? ==> r.value == GrossMarginPct(actuals, fx)
  {
    var out := GrossMarginPct(actuals, fx);
    MarginEmpty(actuals, fx);
    if |out| == 0 then Err(NoMonthColumn) else Ok(out)
  }

  /** The margin table is empty exactly when no row is Revenue or COGS. */
  lemma MarginEmpty(actuals: seq<LedgerRow>, fx: seq<FxRate>)
    ensures |GrossMarginPct(actuals, fx)| == 0 <==>
      forall m :: !HasRow(actuals, m, None, Account(REVENUE)) && !HasRow(actuals, m, None, Account(COGS))
  {
    var out := GrossMarginPct(actuals, fx);
    if |out| > 0 {
      assert HasRow(actuals, out[0].month, None, Account(REVENUE)) || HasRow(actuals, out[0].month, None, Account(COGS));
    }
  }

  /** `ebitda_series` as written: the same `KeyError` when no row is
      Revenue, COGS or opex; otherwise the month-ordered table. */
  function EbitdaSeriesAsWritten(actuals: seq<LedgerRow>, fx: seq<FxRate>): (r: Result<seq<EbitdaRow>, FrameError>)
    ensures r.Err? <==> forall m :: !EbitdaMonth(actuals, m)
    ensures r.Ok? ==> r.value == EbitdaSeries(actuals, fx)
  {
    var out := EbitdaSeries(actuals, fx);
    EmptySeries(actuals, fx);
    if |out| == 0 then Err(NoMonthColumn) else Ok(out)
  }

  /** `cash_runway_months` as written: the empty series raises inside
      `ebitda_series`, so its `None` branch is never reached. */
  function CashRunwayAsWritten(cash: seq<CashRow>, actuals: seq<LedgerRow>, fx: seq<FxRate>): (r: Result<Runway, FrameError>)
    ensures r != Ok(NoData)
    ensures r == Err(NoMonthColumn) <==> forall m :: !EbitdaMonth(actuals, m)
    ensures (exists m :: EbitdaMonth(actuals, m)) ==> r == CashRunwayMonths(cash, actuals, fx)
  {
    EmptySeries(actuals, fx);
    match EbitdaSeriesAsWritten(actuals, fx)
    case Err(e) => Err(e)
    case Ok(eb) => RunwayOfWindow(Trailing(eb), cash)
  }

  /** With a cash balance but no ledger rows the source raises, where the
      intended answer is "no data". */
  lemma NoLedgerRowsRaises()
    ensures CashRunwayAsWritten([CashRow("2025-06", 1000.0)], [], []) == Err(NoMonthColumn)
    ensures CashRunwayMonths([CashRow("2025-06", 1000.0)], [], []) == Ok(NoData)
  {
    assert forall m :: !EbitdaMonth([], m);
  }

  /** A ledger holding only an opex row has no margin table:
      the source raises where the intended answer is an empty table. */
  lemma OpexOnlyLedgerHasNoMargin()
    ensures GrossMarginPctAsWritten([LedgerRow("2025-06", "US", "Opex:Rent", "USD", 10.0)], []) == Err(NoMonthColumn)
    ensures GrossMarginPct([LedgerRow("2025-06", "US", "Opex:Rent", "USD", 10.0)], []) == []
  {
    var rows := [LedgerRow("2025-06", "US", "Opex:Rent", "USD", 10.0)];
    assert "Opex:Rent" != REVENUE && "Opex:Rent" != COGS;
    assert forall m :: !HasRow(rows, m, None, Account(REVENUE)) && !HasRow(rows, m, None, Account(COGS));
    MarginEmpty(rows, []);
  }

  /** A ledger whose only row is neither Revenue, COGS nor opex has no
      EBITDA table: the source raises at the final sort where the intended
      answer is an empty table. */
  lemma OtherOnlyLedgerHasNoEbitda()
    ensures EbitdaSeriesAsWritten([LedgerRow("2025-06", "US", "Other", "USD", 10.0)], []) == Err(NoMonthColumn)
    ensures EbitdaSeries([LedgerRow("2025-06", "US", "Other", "USD", 10.0)], []) == []
  {
    var rows := [LedgerRow("2025-06", "US", "Other", "USD", 10.0)];
    assert "Other" != REVENUE && "Other" != COGS;
    assert !IsOpex("Other") by {
      assert "Other"[1] != OPEX_PREFIX[1];
    }
    assert forall m :: !EbitdaMonth(rows, m);
    EmptySeries(rows, []);
  }
}

=== FILE: planner.dfy ===
/** The intent classifier of agent/planner.py: a question is lower-cased
    and stripped, searched for a `20YY-MM` month, and sorted into one of six
    intents by a cascade of keyword tests. */
module Planner {
  import opened Wrappers
  import opened Text

  /** The six intents the agent can serve. */
  datatype IntentName = RevenueVsBudget | GrossMarginTrend | OpexBreakdown | EbitdaTrend | CashRunway | Help

  /** `Intent(name, month)`; the `extra` field is never set by the parser. */
  datatype Intent = Intent(name: IntentName, month: Option<string>)

  /* ---------------------------------------------------------------------
     The month pattern `20\d{2}-\d{2}`
     --------------------------------------------------------------------- */

  predicate IsDigit(c: char)
  {
    '0' <= c <= '9'
  }

  /** The pattern `20\d{2}-\d{2}` matches the seven characters at `i`. */
  predicate MonthAt(s: string, i: int)
  {
    && 0 <= i && i + 7 <= |s|
    && s[i] == '2' && s[i + 1] == '0' && IsDigit(s[i + 2]) && IsDigit(s[i + 3])
    && s[i + 4] == '-' && IsDigit(s[i + 5]) && IsDigit(s[i + 6])
  }

  /** The first index at or after `i` where the pattern matches. */
  function FindMonthFrom(s: string, i: nat): (r: Option<nat>)
    requires i <= |s|
    ensures r.Some? ==> i <= r.value && MonthAt(s, r.value) && forall j :: i <= j < r.value ==> !MonthAt(s, j)
    ensures r.None? ==> forall j :: i <= j ==> !MonthAt(s, j)
    decreases |s| - i
  {
    if i + 7 > |s| then None
    else if MonthAt(s, i) then Some(i)
    else FindMonthFrom(s, i + 1)
  }

  /** `re.search(r"(20\d{2}-\d{2})", s)`: the leftmost match, if any. */
  function SearchMonth(s: string): (m: Option<string>)
    ensures m.None? <==> forall j :: !MonthAt(s, j)
    ensures m.Some? ==> exists j :: MonthAt(s, j) && m.value == s[j..j + 7] && forall k :: 0 <= k < j ==> !MonthAt(s, k)
  {
    match FindMonthFrom(s, 0)
    case None => None
    case Some(j) => Some(s[j..j + 7])
  }

  /** Two leftmost matches are the same match. */
  lemma LeftmostUnique(s: string, i: int, j: int)
    requires MonthAt(s, i) && forall k :: 0 <= k < i ==> !MonthAt(s, k)
    requires MonthAt(s, j) && forall k :: 0 <= k < j ==> !MonthAt(s, k)
    ensures i == j
  {
  }

  /** If `t` has the matches of `s`, shifted right by `d`, and no others,
      both searches find the same month. */
  lemma {:induction false} ShiftedSearch(s: string, t: string, d: nat)
    requires forall j :: MonthAt(s, j) ==> MonthAt(t, j + d) && s[j..j + 7] == t[j + d..j + d + 7]
    requires forall i :: MonthAt(t, i) ==> i >= d && MonthAt(s, i - d)
    ensures SearchMonth(s) == SearchMonth(t)
  {
    var ms := SearchMonth(s);
    var mt := SearchMonth(t);
    if ms.None? {
      forall i ensures !MonthAt(t, i) {
        assert !MonthAt(s, i - d);
      }
    } else {
      var j :| MonthAt(s, j) && ms.value == s[j..j + 7] && forall k :: 0 <= k < j ==> !MonthAt(s, k);
      assert MonthAt(t, j + d);
      var i :| MonthAt(t, i) && mt.value == t[i..i + 7] && forall k :: 0 <= k < i ==> !MonthAt(t, k);
      assert MonthAt(s, i - d);
      assert forall k :: 0 <= k < j + d ==> !MonthAt(t, k) by {
        forall k | 0 <= k < j + d ensures !MonthAt(t, k) {
          assert k < d || !MonthAt(s, k - d);
        }
      }
      LeftmostUnique(t, i, j + d);
    }
  }

  /** Lower-casing leaves digits and `-` alone, so it finds the same month. */
  lemma LowerKeepsMonth(q: string)
    ensures SearchMonth(Lower(q)) == SearchMonth(q)
  {
    var s := Lower(q);
    forall j | MonthAt(s, j) ensures MonthAt(q, j) && s[j..j + 7] == q[j..j + 7] {
      assert forall k :: j <= k < j + 7 ==> q[k] == s[k] by {
        forall k | j <= k < j + 7 ensures q[k] == s[k] {
          assert IsDigit(s[k]) || s[k] == '-';
        }
      }
    }
    forall j | MonthAt(q, j) ensures MonthAt(s, j) {
      assert forall k :: j <= k < j + 7 ==> q[k] == s[k];
    }
    ShiftedSearch(s, q, 0);
  }

  /** A match starts with `2` and ends with a digit, neither of them
      whitespace, so it lies inside the stripped range. */
  lemma MonthInsideStrip(t: string, i: int)
    requires MonthAt(t, i)
    ensures StripStart(t) <= i && i + 7 <= StripEnd(t)
  {
    assert !IsSpace(t[i]) && !IsSpace(t[i + 6]);
  }

  /** Stripping finds the same month. */
  lemma StripKeepsMonth(t: string)
    ensures SearchMonth(Strip(t)) == SearchMonth(t)
  {
    var s := Strip(t);
    var a := StripStart(t);
    var b := StripEnd(t);
    if a < b {
      assert s == t[a..b];
      assert forall k :: 0 <= k < |s| ==> s[k] == t[a + k];
      forall j | MonthAt(s, j) ensures MonthAt(t, j + a) && s[j..j + 7] == t[j + a..j + a + 7] {
      }
      forall i | MonthAt(t, i) ensures i >= a && MonthAt(s, i - a) {
        MonthInsideStrip(t, i);
      }
      ShiftedSearch(s, t, a);
    } else {
      assert |s| == 0;
      forall i ensures !MonthAt(t, i) {
        if 0 <= i < |t| {
          assert IsSpace(t[i]);
        }
      }
    }
  }

  /* ---------------------------------------------------------------------
     The keyword cascade
     --------------------------------------------------------------------- */

  ghost predicate AsksRevenueVsBudget(s: string)
  {
    Occurs(s, "revenue") && Occurs(s, "budget")
  }

  ghost predicate AsksGrossMargin(s: string)
  {
    Occurs(s, "gross margin")
  }

  ghost predicate AsksOpexBreakdown(s: string)
  {
    Occurs(s, "opex") && (Occurs(s, "breakdown") || Occurs(s, "by category"))
  }

  ghost predicate AsksEbitda(s: string)
  {
    Occurs(s, "ebitda")
  }

  /** Mentions both "cash" and "runway", anywhere and in either order. */
  ghost predicate AsksCashRunway(s: string)
  {
    Occurs(s, "runway") && Occurs(s, "cash")
  }

  /** A text containing the phrase "cash runway" contains both words. */
  lemma CashRunwayPhrase(s: string)
    ensures Occurs(s, "cash runway") ==> AsksCashRunway(s)
  {
    if Occurs(s, "cash runway") {
      assert OccursAt("cash runway", "cash", 0);
      assert OccursAt("cash runway", "runway", 5);
      OccursWithin(s, "cash runway", "cash", 0);
      OccursWithin(s, "cash runway", "runway", 5);
    }
  }

  /** The rules in priority order: the first rule a text satisfies decides
      its intent, and a text that satisfies none asks for help. The source's
      extra test for the phrase "cash runway" adds nothing, since that
      phrase contains both words. */
  function Classify(s: string): (n: IntentName)
    ensures n == RevenueVsBudget <==> AsksRevenueVsBudget(s)
    ensures n == GrossMarginTrend <==> !AsksRevenueVsBudget(s) && AsksGrossMargin(s)
    ensures n == OpexBreakdown <==> !AsksRevenueVsBudget(s) && !AsksGrossMargin(s) && AsksOpexBreakdown(s)
    ensures n == EbitdaTrend <==> !AsksRevenueVsBudget(s) && !AsksGrossMargin(s) && !AsksOpexBreakdown(s) && AsksEbitda(s)
    ensures n == CashRunway <==> !AsksRevenueVsBudget(s) && !AsksGrossMargin(s) && !AsksOpexBreakdown(s) && !AsksEbitda(s)
                                 && AsksCashRunway(s)
    ensures n == Help <==> !AsksRevenueVsBudget(s) && !AsksGrossMargin(s) && !AsksOpexBreakdown(s) && !AsksEbitda(s)
                           && !AsksCashRunway(s)
  {
    if Contains(s, "revenue") && Contains(s, "budget") then RevenueVsBudget
    else if Contains(s, "gross margin") then GrossMarginTrend
    else if Contains(s, "opex") && (Contains(s, "breakdown") || Contains(s, "by category")) then OpexBreakdown
    else if Contains(s, "ebitda") then EbitdaTrend
    else if Contains(s, "cash runway") || (Contains(s, "runway") && Contains(s, "cash")) then
      CashRunwayPhrase(s);
      CashRunway
    else Help
  }

  /** `q.lower().strip()`. */
  function Normalize(q: string): string
  {
    Strip(Lower(q))
  }

  /** The keywords neither start nor end with whitespace, so stripping
      does not change the intent. */
  lemma StripKeepsIntent(s: string)
    ensures Classify(Strip(s)) == Classify(s)
  {
    StripKeepsOccurrences(s, "revenue");
    StripKeepsOccurrences(s, "budget");
    StripKeepsOccurrences(s, "gross margin");
    StripKeepsOccurrences(s, "opex");
    StripKeepsOccurrences(s, "breakdown");
    StripKeepsOccurrences(s, "by category");
    StripKeepsOccurrences(s, "ebitda");
    StripKeepsOccurrences(s, "runway");
    StripKeepsOccurrences(s, "cash");
  }

  /** `parse_intent`: the intent the keyword rules pick for the lower-cased
      question, with the first `20YY-MM` month of the question; the help
      intent never carries a month. */
  function ParseIntent(q: string): (it: Intent)
    ensures it.name == Classify(Lower(q))
    ensures it.name == Help ==> it.month == None
    ensures it.name != Help ==> it.month == SearchMonth(q)
  {
    var s := Normalize(q);
    var month := SearchMonth(s);
    StripKeepsIntent(Lower(q));
    StripKeepsMonth(Lower(q));
    LowerKeepsMonth(q);
    var name := Classify(s);
    if name == Help then Intent(Help, None) else Intent(name, month)
  }

  /** Upper- and lower-case spellings of a question mean the same. */
  lemma ParseIntentIgnoresCase(q: string)
    ensures ParseIntent(Lower(q)) == ParseIntent(q)
  {
    LowerIdempotent(q);
    LowerKeepsMonth(q);
  }

  /** Surrounding whitespace does not change the parsed intent. */
  lemma ParseIntentIgnoresSurroundingSpace(q: string)
    ensures ParseIntent(Strip(q)) == ParseIntent(q)
  {
    StripKeepsMonth(q);
    StripLowerCommute(q);
    StripKeepsIntent(Lower(q));
  }

  /** Lower-casing maps whitespace to whitespace and nothing else to it, so
      it commutes with stripping. */
  lemma StripLowerCommute(q: string)
    ensures Strip(Lower(q)) == Lower(Strip(q))
  {
    var l := Lower(q);
    forall i | 0 <= i < |q| ensures IsSpace(l[i]) <==> IsSpace(q[i]) {
      if IsUpper(q[i]) {
        assert l[i] as int == q[i] as int + 32;
      }
    }
    StripIndicesAgree(l, q);
    var a := StripStart(q);
    var b := StripEnd(q);
    if a < b {
      LowerSlice(q, a, b);
    }
  }

  /** Lower-casing works character by character, so it commutes with
      slicing. */
  lemma LowerSlice(q: string, a: int, b: int)
    requires 0 <= a <= b <= |q|
    ensures Lower(q[a..b]) == Lower(q)[a..b]
  {
    var x := Lower(q[a..b]);
    var y := Lower(q)[a..b];
    forall k | 0 <= k < b - a ensures x[k] == y[k] {
      assert x[k] == LowerChar(q[a..b][k]);
      assert y[k] == LowerChar(q[a + k]);
    }
  }

  /** Two strings of equal length with whitespace in the same places strip
      to the same index range. */
  lemma StripIndicesAgree(s: string, t: string)
    requires |s| == |t|
    requires forall i :: 0 <= i < |s| ==> (IsSpace(s[i]) <==> IsSpace(t[i]))
    ensures StripStart(s) == StripStart(t) && StripEnd(s) == StripEnd(t)
  {
    StripStartAgrees(s, t);
    StripEndAgrees(s, t);
  }

  lemma {:induction false} StripStartAgrees(s: string, t: string)
    requires |s| == |t|
    requires forall i :: 0 <= i < |s| ==> (IsSpace(s[i]) <==> IsSpace(t[i]))
    ensures StripStart(s) == StripStart(t)
  {
    if |s| > 0 && IsSpace(s[0]) {
      assert forall i :: 0 <= i < |s| - 1 ==> s[1..][i] == s[i + 1] && t[1..][i] == t[i + 1];
      StripStartAgrees(s[1..], t[1..]);
    }
  }

  lemma {:induction false} StripEndAgrees(s: string, t: string)
    requires |s| == |t|
    requires forall i :: 0 <= i < |s| ==> (IsSpace(s[i]) <==> IsSpace(t[i]))
    ensures StripEnd(s) == StripEnd(t)
  {
    if |s| > 0 && IsSpace(s[|s| - 1]) {
      StripEndAgrees(s[..|s| - 1], t[..|t| - 1]);
    }
  }

  /* ---------------------------------------------------------------------
     Worked examples
     --------------------------------------------------------------------- */

  /** The pattern has no word boundaries: it is found inside longer runs of
      digits. */
  lemma MonthInsideLongerNumber()
    ensures SearchMonth("12025-067") == Some("2025-06")
  {
    var q := "12025-067";
    assert !MonthAt(q, 0);
    assert MonthAt(q, 1);
    var j :| MonthAt(q, j) && SearchMonth(q).value == q[j..j + 7] && forall k :: 0 <= k < j ==> !MonthAt(q, k);
    LeftmostUnique(q, j, 1);
    assert q[1..8] == "2025-06";
  }

  /** A question without a `-` names no month. */
  lemma NoDashNoMonth(q: string)
    requires '-' !in q
    ensures SearchMonth(q) == None
  {
    forall j ensures !MonthAt(q, j) {
      if 0 <= j && j + 7 <= |q| {
        assert q[j + 4] in q;
      }
    }
  }

  lemma LowerExample1()
    ensures Lower("2025-06 Revenue vs Budget") == "2025-06 revenue vs budget"
  {
  }

  /** Naming both revenue and budget is enough for the first rule. */
  lemma RevenueAndBudget(s: string, i: int, j: int)
    requires OccursAt(s, "revenue", i) && OccursAt(s, "budget", j)
    ensures Classify(s) == RevenueVsBudget
  {
  }

  lemma ClassifyExample1()
    ensures Classify("2025-06 revenue vs budget") == RevenueVsBudget
  {
    RevenueAndBudget("2025-06 revenue vs budget", 8, 19);
  }

  lemma SearchExample1()
    ensures SearchMonth("2025-06 Revenue vs Budget") == Some("2025-06")
  {
    var q := "2025-06 Revenue vs Budget";
    assert MonthAt(q, 0);
    var j :| MonthAt(q, j) && SearchMonth(q).value == q[j..j + 7] && forall k :: 0 <= k < j ==> !MonthAt(q, k);
    LeftmostUnique(q, j, 0);
    assert q[0..7] == "2025-06";
  }

  /** Mixed case is ignored and the month is picked up. */
  lemma ParsesMonthAndIntent()
    ensures ParseIntent("2025-06 Revenue vs Budget") == Intent(RevenueVsBudget, Some("2025-06"))
  {
    LowerExample1();
    ClassifyExample1();
    SearchExample1();
  }

  lemma LowerExample2()
    ensures Lower("June 2025 revenue vs budget") == "june 2025 revenue vs budget"
  {
  }

  lemma ClassifyExample2()
    ensures Classify("june 2025 revenue vs budget") == RevenueVsBudget
  {
    RevenueAndBudget("june 2025 revenue vs budget", 10, 21);
  }

  /** A month written out in words is not recognised, even though the
      intent is. */
  lemma MonthInWordsIsNotRecognised()
    ensures ParseIntent("June 2025 revenue vs budget") == Intent(RevenueVsBudget, None)
  {
    LowerExample2();
    ClassifyExample2();
    NoDashNoMonth("June 2025 revenue vs budget");
  }

  lemma LowerExample3()
    ensures Lower("xyz nonsense") == "xyz nonsense"
  {
  }

  lemma ClassifyExample3()
    ensures Classify("xyz nonsense") == Help
  {
    var q := "xyz nonsense";
    AbsentChar(q, "revenue", 0);
    AbsentChar(q, "gross margin", 0);
    AbsentChar(q, "opex", 1);
    AbsentChar(q, "ebitda", 1);
    AbsentChar(q, "runway", 0);
  }

  /** A question matching no rule asks for help and carries no month. */
  lemma UnknownQuestionAsksForHelp()
    ensures ParseIntent("xyz nonsense") == Intent(Help, None)
  {
    LowerExample3();
    ClassifyExample3();
  }
}

=== FILE: text.dfy ===
/** String operations the metrics engine and the intent classifier rely on:
    Python's ordering of `str` values (used by `sorted` and `sort_values`),
    `startswith`, the `in` substring test, and the ASCII part of `lower()`
    and `strip()`. */
module Text {

  /* ---------------------------------------------------------------------
     Ordering: Python compares strings code point by code point, and a
     proper prefix sorts first.
     --------------------------------------------------------------------- */

  /** Python's `a < b` on `str`. */
  predicate Below(a: string, b: string)
  {
    if |a| == 0 then |b| > 0
    else if |b| == 0 then false
    else if a[0] != b[0] then a[0] < b[0]
    else Below(a[1..], b[1..])
  }

  lemma {:induction false} BelowIrreflexive(a: string)
    ensures !Below(a, a)
  {
    if |a| > 0 {
      BelowIrreflexive(a[1..]);
    }
  }

  lemma {:induction false} BelowTransitive(a: string, b: string, c: string)
    requires Below(a, b) && Below(b, c)
    ensures Below(a, c)
  {
    if |a| > 0 && a[0] == b[0] && b[0] == c[0] {
      BelowTransitive(a[1..], b[1..], c[1..]);
    }
  }

  /** Any two different strings are ordered one way or the other. */
  lemma {:induction false} BelowConnected(a: string, b: string)
    ensures a == b || Below(a, b) || Below(b, a)
  {
    if |a| > 0 && |b| > 0 && a[0] == b[0] {
      BelowConnected(a[1..], b[1..]);
      if a[1..] == b[1..] {
        assert a == [a[0]] + a[1..];
        assert b == [b[0]] + b[1..];
      }
    }
  }

  lemma BelowAsymmetric(a: string, b: string)
    requires Below(a, b)
    ensures !Below(b, a)
  {
    if Below(b, a) {
      BelowTransitive(a, b, a);
      BelowIrreflexive(a);
    }
  }

  /** Strictly increasing, hence free of duplicates. */
  predicate StrictlyAscending(s: seq<string>)
  {
    forall i, j :: 0 <= i < j < |s| ==> Below(s[i], s[j])
  }

  lemma AscendingCons(x: string, s: seq<string>)
    requires StrictlyAscending(s)
    requires forall y :: y in s ==> Below(x, y)
    ensures StrictlyAscending([x] + s)
  {
    var r := [x] + s;
    forall i, j | 0 <= i < j < |r|
      ensures Below(r[i], r[j])
    {
      if i > 0 {
        assert r[i] == s[i - 1] && r[j] == s[j - 1];
      } else {
        assert r[j] in s;
      }
    }
  }

  /** Inserts `x` into a strictly ascending sequence, keeping it strictly
      ascending; inserting an element already present changes nothing. */
  function InsertAscending(s: seq<string>, x: string): (r: seq<string>)
    requires StrictlyAscending(s)
    ensures StrictlyAscending(r)
    ensures forall y :: y in r <==> y in s || y == x
  {
    if |s| == 0 then [x]
    else if x == s[0] then s
    else if Below(x, s[0]) then
      (forall y | y in s ensures Below(x, y) {
         if y != s[0] {
           var k :| 0 <= k < |s| && s[k] == y;
           BelowTransitive(x, s[0], y);
         }
       }
       AscendingCons(x, s);
       [x] + s)
    else
      BelowConnected(x, s[0]);
      var rest := InsertAscending(s[1..], x);
      assert StrictlyAscending(s[1..]) by {
        forall i, j | 0 <= i < j < |s[1..]| ensures Below(s[1..][i], s[1..][j]) {
          assert s[1..][i] == s[i + 1] && s[1..][j] == s[j + 1];
        }
      }
      assert forall y :: y in rest ==> Below(s[0], y) by {
        forall y | y in rest ensures Below(s[0], y) {
          if y != x {
            var k :| 1 <= k < |s| && s[k] == y;
          }
        }
      }
      AscendingCons(s[0], rest);
      assert forall y :: y in s <==> y == s[0] || y in s[1..] by {
        assert s == [s[0]] + s[1..];
      }
      [s[0]] + rest
  }

  /** Python's `sorted(set(xs))`: the distinct elements of `xs` in
      ascending order. */
  function SortedDistinct(xs: seq<string>): (r: seq<string>)
    ensures StrictlyAscending(r)
    ensures forall y :: y in r <==> y in xs
  {
    if |xs| == 0 then []
    else
      assert xs == xs[..|xs| - 1] + [xs[|xs| - 1]];
      InsertAscending(SortedDistinct(xs[..|xs| - 1]), xs[|xs| - 1])
  }

  /** Two strictly ascending sequences with the same elements are equal, so
      the contract of `SortedDistinct` pins its result down completely. */
  lemma {:induction false} AscendingUnique(s: seq<string>, t: seq<string>)
    requires StrictlyAscending(s) && StrictlyAscending(t)
    requires forall y :: y in s <==> y in t
    ensures s == t
  {
    assert |s| > 0 <==> |t| > 0 by {
      if |s| > 0 { assert s[0] in t; }
      if |t| > 0 { assert t[0] in s; }
    }
    if |s| > 0 {
      if s[0] != t[0] {
        assert s[0] in t;
        assert t[0] in s;
        var i :| 0 <= i < |t| && t[i] == s[0];
        var j :| 0 <= j < |s| && s[j] == t[0];
        BelowAsymmetric(s[0], t[0]);
        assert false;
      }
      forall y
        ensures y in s[1..] <==> y in t[1..]
      {
        if y in s[1..] {
          var i :| 1 <= i < |s| && s[i] == y;
          BelowIrreflexive(y);
          assert y != s[0];
          assert y in t;
          assert y != t[0];
        }
        if y in t[1..] {
          var i :| 1 <= i < |t| && t[i] == y;
          BelowIrreflexive(y);
          assert y != t[0];
          assert y in s;
        }
      }
      assert StrictlyAscending(s[1..]) by {
        forall i, j | 0 <= i < j < |s[1..]| ensures Below(s[1..][i], s[1..][j]) {
          assert s[1..][i] == s[i + 1];
        }
      }
      assert StrictlyAscending(t[1..]) by {
        forall i, j | 0 <= i < j < |t[1..]| ensures Below(t[1..][i], t[1..][j]) {
          assert t[1..][i] == t[i + 1];
        }
      }
      AscendingUnique(s[1..], t[1..]);
      assert s == [s[0]] + s[1..];
      assert t == [t[0]] + t[1..];
    }
  }

  /* ---------------------------------------------------------------------
     Prefix and substring tests
     --------------------------------------------------------------------- */

  /** Python's `s.startswith(prefix)`; case-sensitive. */
  predicate StartsWith(s: string, prefix: string)
  {
    |prefix| <= |s| && s[..|prefix|] == prefix
  }

  /** `w` occurs in `s` starting at index `i`. */
  ghost predicate OccursAt(s: string, w: string, i: int)
  {
    0 <= i && i + |w| <= |s| && s[i..i + |w|] == w
  }

  ghost predicate Occurs(s: string, w: string)
  {
    exists i :: OccursAt(s, w, i)
  }

  /** Python's `w in s` for strings: a scan for the first place `w` starts. */
  function Contains(s: string, w: string): (r: bool)
    ensures r <==> Occurs(s, w)
    decreases |s|
  {
    if StartsWith(s, w) then
      assert OccursAt(s, w, 0);
      true
    else if |s| == 0 then
      assert forall i :: !OccursAt(s, w, i);
      false
    else
      var r := Contains(s[1..], w);
      assert r ==> Occurs(s, w) by {
        if r {
          var i :| OccursAt(s[1..], w, i);
          assert s[1..][i..i + |w|] == s[i + 1..i + 1 + |w|];
          assert OccursAt(s, w, i + 1);
        }
      }
      assert Occurs(s, w) ==> r by {
        if Occurs(s, w) {
          var i :| OccursAt(s, w, i);
          assert i != 0;
          assert s[1..][i - 1..i - 1 + |w|] == s[i..i + |w|];
          assert OccursAt(s[1..], w, i - 1);
        }
      }
      r
  }

  /** An occurrence of `v` inside an occurrence of `w` is an occurrence in
      the whole string. */
  lemma OccursWithin(s: string, w: string, v: string, k: int)
    requires Occurs(s, w)
    requires OccursAt(w, v, k)
    ensures Occurs(s, v)
  {
    var i :| OccursAt(s, w, i);
    forall n | 0 <= n < |v| ensures s[i + k + n] == v[n] {
      assert s[i..i + |w|][k + n] == s[i + k + n];
      assert w[k..k + |v|][n] == w[k + n];
    }
    assert s[i + k..i + k + |v|] == v;
    assert OccursAt(s, v, i + k);
  }

  /** A word with a character that `s` lacks does not occur in `s`. */
  lemma AbsentChar(s: string, w: string, k: int)
    requires 0 <= k < |w| && w[k] !in s
    ensures !Occurs(s, w)
  {
    forall i ensures !OccursAt(s, w, i) {
      if 0 <= i && i + |w| <= |s| {
        assert s[i..i + |w|][k] == s[i + k];
        assert s[i + k] in s;
      }
    }
  }

  /* ---------------------------------------------------------------------
     Case and whitespace, restricted to ASCII
     --------------------------------------------------------------------- */

  predicate IsUpper(c: char)
  {
    'A' <= c <= 'Z'
  }

  function LowerChar(c: char): (d: char)
    ensures !IsUpper(d)
    ensures !IsUpper(c) ==> d == c
    ensures IsUpper(c) ==> d as int == c as int + 32
  {
    if IsUpper(c) then (c as int + 32) as char else c
  }

  /** `s.lower()` on ASCII letters; every other character is kept. */
  function Lower(s: string): (r: string)
    ensures |r| == |s|
    ensures forall i :: 0 <= i < |r| ==> !IsUpper(r[i])
    ensures forall i :: 0 <= i < |s| && !IsUpper(s[i]) ==> r[i] == s[i]
    ensures forall i :: 0 <= i < |s| && IsUpper(s[i]) ==> r[i] as int == s[i] as int + 32
  {
    seq(|s|, i requires 0 <= i < |s| => LowerChar(s[i]))
  }

  /** Lowering twice is lowering once. */
  lemma LowerIdempotent(s: string)
    ensures Lower(Lower(s)) == Lower(s)
  {
  }

  /** The characters Python's `str.isspace()` accepts below code point 128:
      tab, line feed, vertical tab, form feed, carriage return, the four
      information separators and the space. */
  predicate IsSpace(c: char)
  {
    9 <= c as int <= 13 || 28 <= c as int <= 32
  }

  /** Index of the first non-whitespace character, or `|s|`. */
  function StripStart(s: string): (a: nat)
    ensures a <= |s|
    ensures forall i :: 0 <= i < a ==> IsSpace(s[i])
    ensures a < |s| ==> !IsSpace(s[a])
  {
    if |s| == 0 || !IsSpace(s[0]) then 0
    else
      var a := 1 + StripStart(s[1..]);
      assert forall i :: 1 <= i < a ==> s[i] == s[1..][i - 1];
      a
  }

  /** One past the index of the last non-whitespace character, or 0. */
  function StripEnd(s: string): (b: nat)
    ensures b <= |s|
    ensures forall i :: b <= i < |s| ==> IsSpace(s[i])
    ensures b > 0 ==> !IsSpace(s[b - 1])
  {
    if |s| == 0 || !IsSpace(s[|s| - 1]) then |s|
    else StripEnd(s[..|s| - 1])
  }

  /** `s.strip()`: drops leading and trailing whitespace. */
  function Strip(s: string): (r: string)
    ensures |r| <= |s|
    ensures |r| == 0 <==> forall i :: 0 <= i < |s| ==> IsSpace(s[i])
    ensures |r| > 0 ==> !IsSpace(r[0]) && !IsSpace(r[|r| - 1])
    ensures |r| > 0 ==> r == s[StripStart(s)..StripEnd(s)]
  {
    var a := StripStart(s);
    var b := StripEnd(s);
    if a < b then s[a..b] else []
  }

  /** An occurrence in the stripped text is an occurrence in the text. */
  lemma StripOccurrenceKept(s: string, w: string)
    requires |w| > 0
    requires Occurs(Strip(s), w)
    ensures Occurs(s, w)
  {
    var i :| OccursAt(Strip(s), w, i);
    var a := StripStart(s);
    var b := StripEnd(s);
    assert Strip(s) == s[a..b] by {
      assert 0 <= i && i + |w| <= |Strip(s)|;
    }
    assert OccursAt(s, w, a + i) by {
      assert s[a + i..a + i + |w|] == s[a..b][i..i + |w|];
    }
  }

  /** An occurrence of a word that neither starts nor ends with whitespace
      lies inside the stripped range. */
  lemma OccurrenceInsideStrip(s: string, w: string)
    requires |w| > 0 && !IsSpace(w[0]) && !IsSpace(w[|w| - 1])
    requires Occurs(s, w)
    ensures Occurs(Strip(s), w)
  {
    var i :| OccursAt(s, w, i);
    var a := StripStart(s);
    var b := StripEnd(s);
    assert a <= i by {
      assert s[i..i + |w|][0] == s[i];
    }
    assert i + |w| <= b by {
      assert s[i..i + |w|][|w| - 1] == s[i + |w| - 1];
    }
    assert Strip(s) == s[a..b] by {
      assert !IsSpace(s[i]);
    }
    assert OccursAt(Strip(s), w, i - a) by {
      assert s[a..b][i - a..i - a + |w|] == s[i..i + |w|];
    }
  }

  /** Stripping cannot add or remove an occurrence of a word that neither
      starts nor ends with whitespace. */
  lemma StripKeepsOccurrences(s: string, w: string)
    requires |w| > 0 && !IsSpace(w[0]) && !IsSpace(w[|w| - 1])
    ensures Occurs(Strip(s), w) <==> Occurs(s, w)
  {
    if Occurs(Strip(s), w) {
      StripOccurrenceKept(s, w);
    }
    if Occurs(s, w) {
      OccurrenceInsideStrip(s, w);
    }
  }
}

=== FILE: wrappers.dfy ===
/** Failure-aware result types shared by the metrics engine and the intent
    classifier: `Option` stands for Python's `None`-or-value, `Result` for a
    value or the exception the source would raise. */
module Wrappers {

  datatype Option<+T> = None | Some(value: T)

  datatype Result<+T, +E> = Ok(value: T) | Err(error: E)
}
